=== FILE: README.md ===
# ComfyUI portable builder: accelerator preflight and workflow check

This project models two maintenance scripts of the ComfyUI portable builder
and proves properties of the models.

- `scripts/preflight_accel.py` probes each optional accelerator backend
  (flash-attention 3, xformers, nunchaku, SpargeAttn, SageAttention, NATTEN,
  bitsandbytes) by importing it. It appends one record per backend to
  `accel_manifest.json`, keeping the old entries. It then renames the custom
  node plugins that depend on a failed backend to `<plugin>.disabled`, so that
  ComfyUI does not load them. It exits with status 0 unless an exception
  escapes it (see "Left out").
- `scripts/qa_validate_workflow.py` finds the portable root, reads the
  minimal text-to-image workflow, and checks three things: the workflow has
  nodes, it uses the five required node types, and a `ComfyUI` directory
  exists. The run stops at the first check that fails.

The model is written in functional style:

- The filesystem is a map from paths to entry kinds (`Paths`).
- JSON values are a datatype, and decoding a file is an oracle from path to
  decoded value (`Json`).
- Importing a module is an oracle from module name to its outcome.
- The tables of backends and dependent plugins are a `Config` parameter.
  `PreflightAccel.SHIPPED` is the shipped configuration.
- In the workflow check, an exception that Python does not catch becomes an
  explicit `Uncaught(stage)` failure. It is not excluded by a precondition.
  The preflight model has no such outcome; the exceptions it does not cover
  are listed under "Left out".

Modules:

| file | module | contents |
|---|---|---|
| `results.dfy` | `Results` | `Option`, `Result` |
| `paths.dfy` | `Paths` | paths, the filesystem map, `Child` (the `/` operator of `pathlib`) |
| `json.dfy` | `Json` | JSON values, decoding outcomes, Python truthiness, `dict.get` |
| `text.dfy` | `Text` | `str.join`, `str.split(", ")` (`FindSep`, `Split`, and `SplitJoin`, which inverts the join), Python string order, sortedness, uniqueness of a sorted enumeration |
| `preflight_accel.dfy` | `PreflightAccel` | import probing, manifest, `disable_node`, `main` |
| `qa_validate_workflow.dfy` | `QaValidateWorkflow` | root resolution, node-type check, `main` and its fail-fast order |

## Model

| member | source | states |
|---|---|---|
| PreflightAccel.TryImport | scripts/preflight_accel.py:45-54 | Succeeds exactly when some listed module imports. On success, the first name that imports supplies the version, every earlier name failed, and there is no error. On failure there is no version, and the error is the per-name segments `name: error`, in list order, joined by " \| ". |
| PreflightAccel.TryImportFrom | scripts/preflight_accel.py:46-54 | The loop with the errors gathered so far: it stops at the first name that imports, and on failure it reports the earlier errors followed by one segment per remaining name. |
| PreflightAccel.CheckResult | scripts/preflight_accel.py:98-113 | A backend's record carries its name and source "runtime-preflight". It succeeds exactly when one of its imports succeeds. Its version is the one `try_import` returned. It has an error exactly when it failed, and that error is `try_import`'s message. |
| PreflightAccel.FailuresOf | scripts/preflight_accel.py:101-103 | A name is a key of the failures table exactly when some record with that name failed, and each entry carries that record's error text. |
| PreflightAccel.RunChecks | scripts/preflight_accel.py:97-113 | One record per configured check, in order. Each record is that check's `CheckResult`, so its name, source, version and error are the ones `try_import` gave for it. Success is equivalent to importability, and an error is present exactly on failure. A backend is in the failures table exactly when its check failed, with `try_import`'s error as the value. |
| PreflightAccel.LoadExistingManifest | scripts/preflight_accel.py:57-67 | A missing or undecodable manifest gives no entries. A decoded list gives its elements. Any other decoded value becomes a one-element list. |
| PreflightAccel.WriteManifest | scripts/preflight_accel.py:70-72 | The written value is a list: the existing entries, unchanged and in order, followed by one encoded record per new result, in order. |
| PreflightAccel.ManifestRoundTrip | scripts/preflight_accel.py:57-72 | Reading back a written manifest gives the old entries followed by the new records. |
| PreflightAccel.LoadNormalizedIsIdentity | scripts/preflight_accel.py:57-67 | Loading a manifest that holds a list already produced by a load gives the same entries again. |
| PreflightAccel.DisableNode | scripts/preflight_accel.py:76-85 | The target is always `<node>.disabled`. If both exist: already disabled, nothing changes. If only the node exists: it is renamed and keeps its kind, so nothing is ever renamed onto an existing target. If the node is missing: nothing changes, and the status is already disabled or missing depending on the target. No other path is affected. |
| PreflightAccel.DisableNodeIdempotent | scripts/preflight_accel.py:76-85 | A second call changes nothing and never reports disabled. After a rename, the second call reports already disabled. |
| PreflightAccel.PlannedDirs | scripts/preflight_accel.py:125-133 | A directory is visited exactly when it is `custom_nodes/<plugin>` for a plugin mapped to a backend in the failures table. A backend with no mapping contributes nothing. |
| PreflightAccel.DisableEach | scripts/preflight_accel.py:132-148 | The loop changes only visited directories and their disabled names. It reports as disabled only the disabled names of visited directories. |
| PreflightAccel.DisableEachPerDirectory | scripts/preflight_accel.py:132-148 | When no visited directory is another's disabled name, each directory ends as a single `disable_node` would leave it. It remains only if its disabled name already existed. Its disabled name exists if either existed before. It is reported disabled exactly when it was renamed. |
| PreflightAccel.DisableEachSettledIsNoop | scripts/preflight_accel.py:132-148 | If every visited directory is already gone or next to its disabled name, the loop changes nothing and disables nothing. |
| PreflightAccel.Preflight | scripts/preflight_accel.py:93-160 | Exit status 0, with the records and failures of the probing loop. The manifest is the loaded entries followed by the new records, and it exists as a file afterwards. Without `custom_nodes`, only the manifest entry changes and nothing is disabled. Otherwise no entry changes outside the manifest, the visited directories and their disabled names. |
| PreflightAccel.PreflightRecordsEveryCheck | scripts/preflight_accel.py:97-113 | One record per configured backend, in order. Each record succeeds exactly when the backend imports and has an error exactly when it fails. A backend is a failures key exactly when its check failed. |
| PreflightAccel.ManifestNotVisited | scripts/preflight_accel.py:90-91 | Neither the manifest path nor `custom_nodes` is ever a visited directory or the disabled name of one. |
| PreflightAccel.ShippedNamesDistinct | scripts/preflight_accel.py:39-42 | In the shipped plugin table, no plugin name is another plugin name plus ".disabled". |
| PreflightAccel.ShippedNamesPlain | scripts/preflight_accel.py:39-42 | Every plugin name in the shipped table is a plain path component: non-empty, not "." or "..", and free of "/", "\\" and ":". For such names, joining onto `custom_nodes` and `with_name` are the string operations the model uses. |
| PreflightAccel.DirsToDisableIndependent | scripts/preflight_accel.py:125-133 | When no plugin name is another plugin name plus ".disabled" (`DistinctDisabledNames`), no directory `main` visits is the disabled name of another visited directory. Plain names alone do not give this: "a" and "a.disabled" are both plain. |
| PreflightAccel.PreflightGating | scripts/preflight_accel.py:118-133 | Apart from the manifest, a filesystem entry changes only if `custom_nodes` exists and the path is `custom_nodes/<plugin>` or its disabled name, for a plugin mapped to a backend whose import failed. |
| PreflightAccel.PreflightDisablesDependents | scripts/preflight_accel.py:125-148 | When no plugin name is another plugin name plus ".disabled": each plugin of a failed backend, under an existing `custom_nodes`, is renamed exactly when it exists and its disabled name does not, and it is reported as disabled exactly then. |
| PreflightAccel.FailedDependentIsVisited | scripts/preflight_accel.py:125-133 | Every plugin mapped to a failed backend is visited. |
| PreflightAccel.PreflightRerunIsStable | scripts/preflight_accel.py:93-160 | When no plugin name is another plugin name plus ".disabled": a second run with the same import outcomes, on the tree the first run left, renames nothing and disables nothing, and produces the same records. If it reads back the first run's manifest, it writes the first manifest followed by the new records. |
| QaValidateWorkflow.ResolvePortableRoot | scripts/qa_validate_workflow.py:8-16 | Succeeds exactly when `base/ComfyUI_Windows_portable` or `base/builder/ComfyUI_Windows_portable` is a directory. The direct location is preferred, and the result is always one of the two and a directory. A failure names `base`. |
| QaValidateWorkflow.CandidateRootsDiffer | scripts/qa_validate_workflow.py:10-11 | The direct and nested candidate roots are different paths. |
| QaValidateWorkflow.WorkflowPath | scripts/qa_validate_workflow.py:38-42 | A given `--workflow` is used as is. Otherwise the path is `<root>/tests/workflows/minimal_text2img.json`. |
| QaValidateWorkflow.NodesValue | scripts/qa_validate_workflow.py:52-53 | `data.get("nodes") or []` is truthy exactly when "nodes" is present with a truthy value. It is then `data["nodes"]` itself, and otherwise the empty list. |
| QaValidateWorkflow.PresentTypes | scripts/qa_validate_workflow.py:56 | A string is a present type exactly when some node's "type" is that string. |
| QaValidateWorkflow.PresentTypesOfConcat | scripts/qa_validate_workflow.py:56 | The types of a concatenation of node lists are the union of the two lists' types. |
| QaValidateWorkflow.RequiredInOrderIsSortedRequired | scripts/qa_validate_workflow.py:57-63 | The constant list is strictly sorted in Python's string order and holds exactly the five required types. |
| QaValidateWorkflow.MissingTypes | scripts/qa_validate_workflow.py:65-66 | The missing list is strictly sorted and holds exactly the required types that are not present. It is empty exactly when every required type is present. |
| QaValidateWorkflow.MissingTypesIsSortedDifference | scripts/qa_validate_workflow.py:65 | Any strictly sorted listing of the required types minus the present ones equals the reported list, which is therefore `sorted(required - node_types)`. |
| QaValidateWorkflow.MissingTypesDependsOnRequiredOnly | scripts/qa_validate_workflow.py:56-67 | Only which required types are present matters. With more types present, the missing list can only shrink. |
| Text.SortedUnique | scripts/qa_validate_workflow.py:65 | Two strictly sorted lists with the same elements are equal. |
| Text.KeepAbsent | scripts/qa_validate_workflow.py:65 | The kept elements are exactly those of the list that are not in the set, and a sorted list stays sorted. |
| QaValidateWorkflow.CheckNodeTypes | scripts/qa_validate_workflow.py:56-67 | Passes exactly when the nodes form a list of dicts with hashable types that covers the required types. Every failure belongs to the types stage. A failure is the missing-types report exactly when the nodes are such a list; otherwise Python raises inside the set comprehension. The reported list is the non-empty `MissingTypes` of the present types. |
| QaValidateWorkflow.Validate | scripts/qa_validate_workflow.py:36-71 | A passing run names the workflow path, which is a file, and the portable root that root resolution found, whose `ComfyUI` is a directory. A missing-types failure lists a non-empty sorted subset of the required types. That list is `MissingTypes` of the types of the workflow's own "nodes" list. |
| QaValidateWorkflow.MissingTypesReported | scripts/qa_validate_workflow.py:52-67 | With the root and a workflow file in place, a non-empty list of dicts in "nodes" that lacks a required type ends the run with exactly `sorted(required - node_types)` as the missing list. |
| QaValidateWorkflow.ExitCode | scripts/qa_validate_workflow.py:77 | The exit status is 0 exactly for a passing run, and 1 for every failure, whether a `SystemExit` or an uncaught exception. Exit 0 assumes the closing prints succeed (see "Left out"). |
| QaValidateWorkflow.ExitMessage | scripts/qa_validate_workflow.py:16-71 | Every failure the script raises as `SystemExit` has a message, and only an uncaught exception has none. The missing-types message is "Missing required node types: " followed by the names joined with ", ". Splitting that tail on ", " gives back exactly the reported list whenever it is non-empty and no name contains a comma. |
| QaValidateWorkflow.MissingReportReadsBack | scripts/qa_validate_workflow.py:58-67 | When some required type is absent, the names after the prefix of the report, split on ", ", are exactly `sorted(required - node_types)`: strictly sorted, and holding each required type that is absent and nothing else. No required type contains a comma. |
| Text.SplitJoin | scripts/qa_validate_workflow.py:67 | `s.split(", ")` undoes `", ".join(parts)` for every non-empty list of parts without commas. |
| QaValidateWorkflow.FirstFailingIsFirst | scripts/qa_validate_workflow.py:36-71 | The first failing stage in check order does not pass, and every earlier stage does. There is none exactly when all stages pass. |
| QaValidateWorkflow.ValidateStopsAtFirstFailing | scripts/qa_validate_workflow.py:36-71 | A run fails exactly at the first stage whose condition fails, and passes exactly when there is none. |
| QaValidateWorkflow.ObjectStopsAtFirstFailing | scripts/qa_validate_workflow.py:52-71 | The same, once the workflow file has decoded to an object. |
| QaValidateWorkflow.NoNodesStopsAtFirstFailing | scripts/qa_validate_workflow.py:52-54 | Once the workflow decodes to an object without a truthy "nodes", the run fails with "Workflow has no nodes", and the nodes stage is the first failing one. |
| QaValidateWorkflow.NodesStopAtFirstFailing | scripts/qa_validate_workflow.py:56-71 | Once the workflow has a truthy "nodes", the run fails exactly at the first failing stage among the types and ComfyUI stages, and passes when there is none. |
| QaValidateWorkflow.ValidateFailsFast | scripts/qa_validate_workflow.py:36-71 | The run passes exactly when all six stage conditions hold. Otherwise it fails at a stage whose condition fails, and all earlier stages passed. |
| QaValidateWorkflow.ComfyUIStage | scripts/qa_validate_workflow.py:69-71 | Once a root is found, the ComfyUI stage passes exactly when `ComfyUI` under the resolved root is a directory. |
| QaValidateWorkflow.MissingNodesStopBeforeTypes | scripts/qa_validate_workflow.py:52-54 | With the root, the file and a JSON object in place, an absent or falsy "nodes" ends the run with "Workflow has no nodes", whatever else the workflow holds. |

## Left out

- Importing modules, reading `__version__` and formatting exceptions are an oracle: `exc.__class__.__name__: exc` is the oracle's error text.
- JSON encoding and decoding are an oracle. `ManifestRoundTrip` assumes that reading back yields the value written (`json.loads` inverts `json.dumps`); indentation and key order are not modelled.
- JSON numbers are real numbers. The decoding oracle supplies the value Python's decoder produces: an int, or the exact value of the float, so `1e-400` arrives as 0 and is falsy. Floating-point rounding itself is not modelled.
- Filesystem I/O is a map update. A rename moves only the entry itself, not paths beneath it. Read errors other than a decode error (permissions, encoding) are not modelled.
- A manifest path that is a directory, and a rename that the operating system refuses, make Python raise. The model does not: it writes the manifest as a file and performs the rename as described.
- `Path(__file__).resolve()` and the `resolve()` calls on `--root` and `--workflow` are not modelled: the repository root is a parameter, and paths are taken as already resolved.
- `with_name` is modelled as appending ".disabled" to the path. This equals it for every path `main` builds under `custom_nodes` from a plain plugin name (see `PlainName` below).
- PreflightAccel.Config: plugin names are taken to be plain path components (`PlainName`: non-empty, not "." or "..", no "/", "\\" or ":"). Only for such a name is `custom_nodes / name` the model's `Child` and `with_name` the model's `DisabledPath`. `ShippedNamesPlain` proves the shipped table meets this. For a table with another name, for example "", the program would rename `custom_nodes` itself, and the model does not describe that run.
- PreflightAccel.ImportOutcome: `__version__` is modelled as an optional string. A module whose `__version__` is another JSON-encodable value would have that value written to the manifest. A module whose `__version__` `json.dumps` cannot encode makes the manifest write raise `TypeError`: the script then exits with status 1, writes no manifest and disables nothing. The model covers neither case.
- PreflightAccel.Preflight: `exitCode == 0` is promised only for the runs the model covers. An exception that is not an `Exception` (for example `KeyboardInterrupt`, or `SystemExit` raised while importing a module) escapes `try_import`'s handler and ends the script. So do the `TypeError` above, the I/O errors listed here, and a print that cannot encode its text (the lines at scripts/preflight_accel.py:99-101 and :136-147 print exception text and paths; on Windows, with output redirected and no UTF-8 mode, the console code page can fail to encode them, and a failure before :116 also leaves the manifest unwritten).
- Printed messages, `argparse` parsing and `sys.exit` plumbing are not modelled. The workflow check returns a `Result`, and `ExitMessage` gives each `SystemExit` text.
- QaValidateWorkflow.ExitCode: exit status 0 for a `Success` assumes the prints at scripts/qa_validate_workflow.py:73-76 succeed. They begin with "✓" (U+2713). On Windows, with output redirected to a file or pipe and no UTF-8 mode, Python encodes them in the ANSI code page with strict errors. The resulting `UnicodeEncodeError` is uncaught, so such a run exits 1, and the model does not describe that.
- PreflightAccel.RunChecks: the failures dict is an ordered list of (name, error) pairs. This equals the dict when check names are distinct, as they are in the shipped table; a repeated name would collapse to one dict entry in Python.
- PreflightAccel.Preflight: the backend and plugin tables are a parameter. Properties that need distinct disabled names (`DistinctDisabledNames`) require it, and `ShippedNamesDistinct` proves it for the shipped table.
- PreflightAccel.DisableEachPerDirectory: proved only when no visited directory is the disabled name of another visited directory. Without that, a later rename can undo an earlier one's outcome.
- Graph-link and node-registry validation, done by other validator scripts in the repository, is not part of this model. `scripts/qa_validate_workflow.py` checks only node presence, the five types and the ComfyUI directory, and the model follows that code.

=== FILE: json.dfy ===
/**
 * Already-decoded JSON values. Decoding itself is an oracle: reading a path
 * yields either a parsed value or the decoder's error message.
 */
module Json {

  import opened Results

  datatype JsonValue =
    | JNull
    | JBool(b: bool)
    | JNumber(n: real)              // the value Python's decoder produces: an int, or the exact value of the float
    | JString(s: string)
    | JArray(items: seq<JsonValue>)
    | JObject(fields: map<string, JsonValue>)

  /** Outcome of `json.loads` on a file's text. */
  datatype Decoded = Parsed(value: JsonValue) | DecodeError(message: string)

  /** Python truthiness of the value `json.loads` produced. */
  predicate Truthy(v: JsonValue)
  {
    match v
    case JNull => false
    case JBool(b) => b
    case JNumber(n) => n != 0.0
    case JString(s) => s != ""
    case JArray(items) => items != []
    case JObject(fields) => fields != map[]
  }

  /** `d.get(key)` on a decoded object. */
  function Get(fields: map<string, JsonValue>, key: string): (r: Option<JsonValue>)
    ensures r.Some? <==> key in fields
    ensures r.Some? ==> r.value == fields[key]
  {
    if key in fields then Some(fields[key]) else None
  }

  /** Values Python can put in a set; decoded lists and dicts cannot. */
  predicate Hashable(v: JsonValue)
  {
    !v.JArray? && !v.JObject?
  }
}

=== FILE: paths.dfy ===
/**
 * The filesystem as the scripts see it: a finite map from path strings to
 * the kind of entry found there. Path joins are string concatenation with
 * a "/" separator; directory contents are not tracked separately.
 */
module Paths {

  type Path = string

  datatype Kind = Dir | File

  type FileSystem = map<Path, Kind>

  /** `parent / name` for a single path component `name`. */
  function Child(parent: Path, name: string): (p: Path)
    ensures |p| == |parent| + 1 + |name|
  {
    parent + "/" + name
  }

  /** `Path.is_dir()` */
  predicate IsDir(fs: FileSystem, p: Path)
  {
    p in fs && fs[p] == Dir
  }

  /** `Path.is_file()` */
  predicate IsFile(fs: FileSystem, p: Path)
  {
    p in fs && fs[p] == File
  }

  /** `p` has the same presence and kind in both filesystems. */
  predicate SameAt(fs: FileSystem, fs': FileSystem, p: Path)
  {
    (p in fs <==> p in fs') && (p in fs ==> fs[p] == fs'[p])
  }
}

=== FILE: preflight_accel.dfy ===
/**
 * The accelerator preflight script: probe each optional acceleration
 * backend by trying its alternative module names, append one result record
 * per backend to the manifest, and rename the plugin directories that
 * depend on a missing backend to `<name>.disabled`.
 *
 * Imports are an oracle from module name to outcome; the filesystem is a
 * map from paths to entry kinds; decoding the old manifest is an oracle
 * from path to decoded JSON.
 */
module PreflightAccel {

  import opened Results
  import opened Paths
  import opened Json
  import opened Text

  // ---------------------------------------------------------------------
  // Configuration
  // ---------------------------------------------------------------------

  /** One backend to probe and the module names that provide it, in order of preference. */
  datatype ImportCheck = ImportCheck(name: string, imports: seq<string>)

  const IMPORT_CHECKS: seq<ImportCheck> := [
    ImportCheck("flash_attn_3", ["flash_attn_3"]),
    ImportCheck("xformers", ["xformers"]),
    ImportCheck("nunchaku", ["nunchaku"]),
    ImportCheck("spas_sage_attn", ["spas_sage_attn", "sparse_sageattn"]),
    ImportCheck("sageattention", ["sageattention", "sageattention2"]),
    ImportCheck("natten", ["natten"]),
    ImportCheck("bitsandbytes", ["bitsandbytes"])
  ]

  /** Plugin directories (under `ComfyUI/custom_nodes`) that need a backend. */
  const DEPENDENT_NODES: map<string, seq<string>> := map[
    "nunchaku" := ["ComfyUI-nunchaku"],
    "spas_sage_attn" := ["ComfyUI-RadialAttn"]
  ]

  const RESULT_SOURCE := "runtime-preflight"
  const DISABLED_SUFFIX := ".disabled"
  const ERROR_SEPARATOR := " | "

  function ManifestPath(repoRoot: Path): Path
  {
    Child(repoRoot, "accel_manifest.json")
  }

  function CustomNodesDir(repoRoot: Path): Path
  {
    Child(Child(repoRoot, "ComfyUI"), "custom_nodes")
  }

  /**
   * The two module-level tables `main` reads. The model takes them as a
   * parameter; `SHIPPED` holds the values the script ships with.
   */
  datatype Config = Config(checks: seq<ImportCheck>, dependentNodes: map<string, seq<string>>)

  const SHIPPED := Config(IMPORT_CHECKS, DEPENDENT_NODES)

  /** `DEPENDENT_NODES.get(backend, [])` */
  function Dependents(dependentNodes: map<string, seq<string>>, backend: string): seq<string>
  {
    if backend in dependentNodes then dependentNodes[backend] else []
  }

  // ---------------------------------------------------------------------
  // Probing imports
  // ---------------------------------------------------------------------

  /**
   * What importing one module name does: either the module loads (with its
   * `__version__`, if it has one) or an exception is raised, whose
   * "ClassName: message" text is kept opaque.
   */
  datatype ImportOutcome = Imported(version: Option<string>) | ImportFailed(error: string)

  type Importer = string -> ImportOutcome

  /** The `(success, version, error)` triple `try_import` returns. */
  datatype Probe = Probe(success: bool, version: Option<string>, error: Option<string>)

  /** Some name in the list imports. */
  ghost predicate Importable(names: seq<string>, importer: Importer)
  {
    exists i | 0 <= i < |names| :: importer(names[i]).Imported?
  }

  /** The error segment recorded for one failed name. */
  function Segment(name: string, error: string): string
  {
    name + ": " + error
  }

  /** One segment per name, in order; meaningful when every name failed. */
  function Segments(names: seq<string>, importer: Importer): (segs: seq<string>)
    requires forall i | 0 <= i < |names| :: importer(names[i]).ImportFailed?
    ensures |segs| == |names|
  {
    seq(|names|, i requires 0 <= i < |names| => Segment(names[i], importer(names[i]).error))
  }

  /**
   * The loop of `try_import` with the errors collected so far: stop at the
   * first name that imports, otherwise record its segment and go on.
   */
  function TryImportFrom(names: seq<string>, importer: Importer, errors: seq<string>): (p: Probe)
    ensures p.success <==> Importable(names, importer)
    ensures p.success ==>
      exists i | 0 <= i < |names| ::
        && importer(names[i]).Imported?
        && (forall j | 0 <= j < i :: importer(names[j]).ImportFailed?)
        && p.version == importer(names[i]).version
        && p.error == None
    ensures !p.success ==>
      && p.version == None
      && p.error == Some(Join(errors + Segments(names, importer), ERROR_SEPARATOR))
    decreases |names|
  {
    if |names| == 0 then
      assert errors + Segments(names, importer) == errors;
      Probe(false, None, Some(Join(errors, ERROR_SEPARATOR)))
    else
      match importer(names[0])
      case Imported(version) => Probe(true, version, None)
      case ImportFailed(e) =>
        var p := TryImportFrom(names[1..], importer, errors + [Segment(names[0], e)]);
        assert p.success ==> exists i | 0 <= i < |names| :: importer(names[i]).Imported? by {
          if p.success {
            var i :| 0 <= i < |names[1..]| && importer(names[1..][i]).Imported?;
            assert importer(names[i + 1]).Imported?;
          }
        }
        assert p.success ==>
          exists i | 0 <= i < |names| ::
            && importer(names[i]).Imported?
            && (forall j | 0 <= j < i :: importer(names[j]).ImportFailed?)
            && p.version == importer(names[i]).version
            && p.error == None
        by {
          if p.success {
            var i :| 0 <= i < |names[1..]|
              && importer(names[1..][i]).Imported?
              && (forall j | 0 <= j < i :: importer(names[1..][j]).ImportFailed?)
              && p.version == importer(names[1..][i]).version
              && p.error == None;
            assert forall j | 0 <= j < i + 1 :: importer(names[j]).ImportFailed? by {
              forall j | 0 <= j < i + 1
                ensures importer(names[j]).ImportFailed?
              {
                if j > 0 {
                  assert names[j] == names[1..][j - 1];
                }
              }
            }
            assert importer(names[i + 1]).Imported?;
          }
        }
        assert !p.success ==> Segments(names, importer) == [Segment(names[0], e)] + Segments(names[1..], importer) by {
          if !p.success {
            assert forall i | 1 <= i < |names| :: importer(names[i]).ImportFailed? by {
              forall i | 1 <= i < |names|
                ensures importer(names[i]).ImportFailed?
              {
                assert names[i] == names[1..][i - 1];
              }
            }
          }
        }
        assert !p.success ==>
          (errors + [Segment(names[0], e)]) + Segments(names[1..], importer)
            == errors + ([Segment(names[0], e)] + Segments(names[1..], importer));
        p
  }

  /**
   * `try_import(import_names)`: succeeds exactly when some name imports,
   * taking the version of the first such name; otherwise reports no
   * version and one error segment per name, in order, joined by " | ".
   */
  function TryImport(names: seq<string>, importer: Importer): (p: Probe)
    ensures p.success <==> Importable(names, importer)
    ensures p.success ==>
      exists i | 0 <= i < |names| ::
        && importer(names[i]).Imported?
        && (forall j | 0 <= j < i :: importer(names[j]).ImportFailed?)
        && p.version == importer(names[i]).version
        && p.error == None
    ensures !p.success ==>
      && p.version == None
      && p.error == Some(Join(Segments(names, importer), ERROR_SEPARATOR))
  {
    var p := TryImportFrom(names, importer, []);
    assert [] + (if p.success then [] else Segments(names, importer)) == (if p.success then [] else Segments(names, importer));
    p
  }

  // ---------------------------------------------------------------------
  // Result records and the failures table
  // ---------------------------------------------------------------------

  /** The record `main` appends for one backend. */
  datatype PreflightResult = PreflightResult(
    name: string,
    version: Option<string>,
    source: string,
    success: bool,
    errorIfAny: Option<string>)

  /** The record for one entry of `IMPORT_CHECKS`. */
  function CheckResult(check: ImportCheck, importer: Importer): (r: PreflightResult)
    ensures r.name == check.name && r.source == RESULT_SOURCE
    ensures r.success <==> Importable(check.imports, importer)
    ensures r.errorIfAny.None? <==> r.success
    ensures !r.success ==> r.version == None && r.errorIfAny == TryImport(check.imports, importer).error
    ensures r.version == TryImport(check.imports, importer).version
    ensures r.errorIfAny == (if r.success then None else TryImport(check.imports, importer).error)
  {
    var p := TryImport(check.imports, importer);
    PreflightResult(check.name, p.version, RESULT_SOURCE, p.success, if p.success then None else p.error)
  }

  /** The accumulated `results` list and `failures` dict (kept in insertion order). */
  datatype ChecksRun = ChecksRun(results: seq<PreflightResult>, failures: seq<(string, string)>)

  /** The backend names that are keys of the failures table. */
  function FailedNames(failures: seq<(string, string)>): (names: seq<string>)
    ensures |names| == |failures|
  {
    seq(|failures|, k requires 0 <= k < |failures| => failures[k].0)
  }

  /**
   * The `failures` dict built by the probing loop: an entry (name, error
   * text) for each failed result.
   */
  function FailuresOf(results: seq<PreflightResult>): (failures: seq<(string, string)>)
    requires forall i | 0 <= i < |results| :: results[i].errorIfAny.None? <==> results[i].success
    ensures forall name ::
      name in FailedNames(failures) <==>
        exists i | 0 <= i < |results| :: results[i].name == name && !results[i].success
    ensures forall k | 0 <= k < |failures| ::
      exists i | 0 <= i < |results| ::
        && results[i].name == failures[k].0
        && !results[i].success
        && results[i].errorIfAny == Some(failures[k].1)
    decreases |results|
  {
    if |results| == 0 then []
    else
      var r := results[0];
      var rest := FailuresOf(results[1..]);
      var failed := if r.success then [] else [(r.name, r.errorIfAny.value)];
      assert forall i | 1 <= i < |results| :: results[i] == results[1..][i - 1];
      assert FailedNames(failed + rest) == FailedNames(failed) + FailedNames(rest);
      assert forall k | |failed| <= k < |failed + rest| :: (failed + rest)[k] == rest[k - |failed|];
      forall name
        ensures name in FailedNames(failed + rest) <==>
          exists i | 0 <= i < |results| :: results[i].name == name && !results[i].success
      {
        if name in FailedNames(failed) {
          assert results[0].name == name && !results[0].success;
        }
        if name in FailedNames(rest) {
          var i :| 0 <= i < |results[1..]| && results[1..][i].name == name && !results[1..][i].success;
          assert results[i + 1].name == name && !results[i + 1].success;
        }
        if exists i | 0 <= i < |results| :: results[i].name == name && !results[i].success {
          var i :| 0 <= i < |results| && results[i].name == name && !results[i].success;
          if i > 0 {
            assert results[1..][i - 1].name == name && !results[1..][i - 1].success;
          } else {
            assert FailedNames(failed)[0] == name;
          }
        }
      }
      failed + rest
  }

  /**
   * The probing loop of `main`: exactly one result per check, in order,
   * and a failures entry, carrying that check's error text, for exactly
   * the checks whose import failed (the entries' order is not stated).
   */
  function RunChecks(checks: seq<ImportCheck>, importer: Importer): (run: ChecksRun)
    ensures |run.results| == |checks|
    ensures run.results == seq(|checks|, i requires 0 <= i < |checks| => CheckResult(checks[i], importer))
    ensures forall i | 0 <= i < |checks| :: run.results[i] == CheckResult(checks[i], importer)
    ensures forall i | 0 <= i < |checks| ::
      && run.results[i].name == checks[i].name
      && run.results[i].source == RESULT_SOURCE
      && (run.results[i].success <==> Importable(checks[i].imports, importer))
      && (run.results[i].errorIfAny.None? <==> run.results[i].success)
    ensures forall name ::
      name in FailedNames(run.failures) <==>
        exists i | 0 <= i < |checks| :: checks[i].name == name && !Importable(checks[i].imports, importer)
    ensures forall k | 0 <= k < |run.failures| ::
      exists i | 0 <= i < |checks| ::
        && checks[i].name == run.failures[k].0
        && !Importable(checks[i].imports, importer)
        && TryImport(checks[i].imports, importer).error == Some(run.failures[k].1)
  {
    var results := seq(|checks|, i requires 0 <= i < |checks| => CheckResult(checks[i], importer));
    var failures := FailuresOf(results);
    forall name
      ensures name in FailedNames(failures) <==>
        exists i | 0 <= i < |checks| :: checks[i].name == name && !Importable(checks[i].imports, importer)
    {
      if name in FailedNames(failures) {
        var i :| 0 <= i < |results| && results[i].name == name && !results[i].success;
        assert checks[i].name == name && !Importable(checks[i].imports, importer);
      }
      if exists i | 0 <= i < |checks| :: checks[i].name == name && !Importable(checks[i].imports, importer) {
        var i :| 0 <= i < |checks| && checks[i].name == name && !Importable(checks[i].imports, importer);
        assert results[i].name == name && !results[i].success;
      }
    }
    forall k | 0 <= k < |failures|
      ensures exists i | 0 <= i < |checks| ::
        && checks[i].name == failures[k].0
        && !Importable(checks[i].imports, importer)
        && TryImport(checks[i].imports, importer).error == Some(failures[k].1)
    {
      var i :| 0 <= i < |results|
        && results[i].name == failures[k].0
        && !results[i].success
        && results[i].errorIfAny == Some(failures[k].1);
      assert checks[i].name == failures[k].0;
    }
    ChecksRun(results, failures)
  }

  // ---------------------------------------------------------------------
  // The manifest
  // ---------------------------------------------------------------------

  function EncodeOption(o: Option<string>): JsonValue
  {
    match o
    case None => JNull
    case Some(s) => JString(s)
  }

  /** The JSON object written for one result record. */
  function EncodeResult(r: PreflightResult): JsonValue
  {
    JObject(map[
      "name" := JString(r.name),
      "version" := EncodeOption(r.version),
      "source" := JString(r.source),
      "success" := JBool(r.success),
      "error_if_any" := EncodeOption(r.errorIfAny)
    ])
  }

  function EncodeResults(rs: seq<PreflightResult>): (entries: seq<JsonValue>)
    ensures |entries| == |rs|
  {
    seq(|rs|, i requires 0 <= i < |rs| => EncodeResult(rs[i]))
  }

  /**
   * `load_existing_manifest(path)`: a missing or undecodable manifest
   * contributes no entries, a decoded list contributes its elements and any
   * other decoded value is wrapped as a one-element list.
   */
  function LoadExistingManifest(fs: FileSystem, path: Path, readJson: Path -> Decoded): (entries: seq<JsonValue>)
    ensures path !in fs ==> entries == []
    ensures path in fs && readJson(path).DecodeError? ==> entries == []
    ensures path in fs && readJson(path).Parsed? ==>
      match readJson(path).value
      case JArray(items) => entries == items
      case other => entries == [other]
  {
    if path !in fs then []
    else
      match readJson(path)
      case DecodeError(_) => []
      case Parsed(data) => if data.JArray? then data.items else [data]
  }

  /**
   * `write_manifest`: the value written is a list holding the existing
   * entries, unchanged and in order, followed by the new records in order.
   */
  function WriteManifest(existing: seq<JsonValue>, newResults: seq<PreflightResult>): (written: JsonValue)
    ensures written.JArray?
    ensures |written.items| == |existing| + |newResults|
    ensures written.items[..|existing|] == existing
    ensures forall i | 0 <= i < |newResults| :: written.items[|existing| + i] == EncodeResult(newResults[i])
  {
    JArray(existing + EncodeResults(newResults))
  }

  /**
   * Reading back a manifest this script wrote (assuming `json.loads`
   * inverts `json.dumps`) yields exactly the entries that were written.
   */
  lemma {:induction false} ManifestRoundTrip(fs: FileSystem, path: Path, readJson: Path -> Decoded,
                          existing: seq<JsonValue>, newResults: seq<PreflightResult>)
    requires path in fs
    requires readJson(path) == Parsed(WriteManifest(existing, newResults))
    ensures LoadExistingManifest(fs, path, readJson) == existing + EncodeResults(newResults)
  {
  }

  /** Normalising an already normalised manifest changes nothing. */
  lemma {:induction false} LoadNormalizedIsIdentity(fs: FileSystem, path: Path, readJson: Path -> Decoded,
                                 fs': FileSystem, readJson': Path -> Decoded)
    requires path in fs'
    requires readJson'(path) == Parsed(JArray(LoadExistingManifest(fs, path, readJson)))
    ensures LoadExistingManifest(fs', path, readJson') == LoadExistingManifest(fs, path, readJson)
  {
  }

  // ---------------------------------------------------------------------
  // Disabling plugin directories
  // ---------------------------------------------------------------------

  /** `node_dir.with_name(node_dir.name + ".disabled")` */
  function DisabledPath(node: Path): Path
  {
    node + DISABLED_SUFFIX
  }

  datatype DisableStatus = Disabled | AlreadyDisabled | Missing

  /** What `disable_node` returns, together with the filesystem afterwards. */
  datatype Disabling = Disabling(status: DisableStatus, disabledPath: Path, fs: FileSystem)

  /**
   * `disable_node(node_dir)`. It renames only when the node exists and the
   * target does not, so it never renames onto an existing entry; in every
   * other case the filesystem is left as it was. No path besides the node
   * and its disabled name is affected.
   */
  function DisableNode(fs: FileSystem, node: Path): (r: Disabling)
    ensures r.disabledPath == DisabledPath(node)
    ensures node in fs && DisabledPath(node) in fs ==> r.status == AlreadyDisabled && r.fs == fs
    ensures node in fs && DisabledPath(node) !in fs ==>
      && r.status == Disabled
      && node !in r.fs
      && DisabledPath(node) in r.fs
      && r.fs[DisabledPath(node)] == fs[node]
    ensures node !in fs ==>
      && r.fs == fs
      && r.status == (if DisabledPath(node) in fs then AlreadyDisabled else Missing)
    ensures r.status == Disabled ==> DisabledPath(node) !in fs
    ensures r.status != Disabled ==> r.fs == fs
    ensures forall p :: p != node && p != DisabledPath(node) ==> SameAt(fs, r.fs, p)
  {
    var target := DisabledPath(node);
    if node in fs then
      if target in fs then Disabling(AlreadyDisabled, target, fs)
      else Disabling(Disabled, target, (fs - {node})[target := fs[node]])
    else if target in fs then Disabling(AlreadyDisabled, target, fs)
    else Disabling(Missing, target, fs)
  }

  /**
   * `disable_node` is idempotent: a second call right after any first call
   * changes nothing and never reports `disabled`; after a `disabled` result
   * it reports `already_disabled`.
   */
  lemma {:induction false} DisableNodeIdempotent(fs: FileSystem, node: Path)
    ensures DisableNode(DisableNode(fs, node).fs, node).fs == DisableNode(fs, node).fs
    ensures DisableNode(DisableNode(fs, node).fs, node).status != Disabled
    ensures DisableNode(fs, node).status == Disabled ==>
      DisableNode(DisableNode(fs, node).fs, node).status == AlreadyDisabled
  {
  }

  /** `disable_node` would change nothing: the node is gone or its disabled name is taken. */
  predicate Settled(fs: FileSystem, node: Path)
  {
    !(node in fs && DisabledPath(node) !in fs)
  }

  /** The directories the disabling loop visits, in order: the dependents of each failed backend. */
  function PlannedDirs(dependentNodes: map<string, seq<string>>, customNodes: Path, failed: seq<string>): (dirs: seq<Path>)
    ensures forall d :: d in dirs <==>
      exists k, n | 0 <= k < |failed| && n in Dependents(dependentNodes, failed[k]) :: d == Child(customNodes, n)
    decreases |failed|
  {
    if |failed| == 0 then []
    else
      var here := Dependents(dependentNodes, failed[0]);
      var mine := seq(|here|, j requires 0 <= j < |here| => Child(customNodes, here[j]));
      var rest := PlannedDirs(dependentNodes, customNodes, failed[1..]);
      forall d
        ensures d in mine + rest <==>
          exists k, n | 0 <= k < |failed| && n in Dependents(dependentNodes, failed[k]) :: d == Child(customNodes, n)
      {
        if d in mine {
          var j :| 0 <= j < |here| && mine[j] == d;
          assert here[j] in Dependents(dependentNodes, failed[0]);
        }
        if d in rest {
          var k, n :| 0 <= k < |failed[1..]| && n in Dependents(dependentNodes, failed[1..][k]) && d == Child(customNodes, n);
          assert failed[k + 1] == failed[1..][k];
        }
        if exists k, n | 0 <= k < |failed| && n in Dependents(dependentNodes, failed[k]) :: d == Child(customNodes, n) {
          var k, n :| 0 <= k < |failed| && n in Dependents(dependentNodes, failed[k]) && d == Child(customNodes, n);
          if k == 0 {
            var j :| 0 <= j < |here| && here[j] == n;
            assert mine[j] == d;
          } else {
            assert failed[1..][k - 1] == failed[k];
          }
        }
      }
      mine + rest
  }

  /** `q` is one of the visited directories or the disabled name of one. */
  ghost predicate Touched(q: Path, dirs: seq<Path>)
  {
    exists i | 0 <= i < |dirs| :: q == dirs[i] || q == DisabledPath(dirs[i])
  }

  /** The `disabled` and `unchanged` lists (`alreadyDisabled` here) and the filesystem after the disabling loop. */
  datatype Sweep = Sweep(fs: FileSystem, disabled: seq<Path>, alreadyDisabled: seq<Path>)

  /**
   * The disabling loop: `disable_node` on each directory in turn. Paths
   * that are neither a visited directory nor its disabled name are left
   * alone, and only disabled names of visited directories are reported.
   */
  function DisableEach(fs: FileSystem, dirs: seq<Path>): (s: Sweep)
    ensures forall q | !Touched(q, dirs) :: SameAt(fs, s.fs, q)
    ensures forall d | d in s.disabled :: exists i | 0 <= i < |dirs| :: d == DisabledPath(dirs[i])
    decreases |dirs|
  {
    if |dirs| == 0 then Sweep(fs, [], [])
    else
      var one := DisableNode(fs, dirs[0]);
      var rest := DisableEach(one.fs, dirs[1..]);
      assert forall q | Touched(q, dirs[1..]) :: Touched(q, dirs) by {
        forall q | Touched(q, dirs[1..])
          ensures Touched(q, dirs)
        {
          var i :| 0 <= i < |dirs[1..]| && (q == dirs[1..][i] || q == DisabledPath(dirs[1..][i]));
          assert dirs[i + 1] == dirs[1..][i];
        }
      }
      assert forall d | d in rest.disabled :: exists i | 0 <= i < |dirs| :: d == DisabledPath(dirs[i]) by {
        forall d | d in rest.disabled
          ensures exists i | 0 <= i < |dirs| :: d == DisabledPath(dirs[i])
        {
          var i :| 0 <= i < |dirs[1..]| && d == DisabledPath(dirs[1..][i]);
          assert dirs[i + 1] == dirs[1..][i];
        }
      }
      Sweep(
        rest.fs,
        (if one.status == Disabled then [one.disabledPath] else []) + rest.disabled,
        (if one.status == AlreadyDisabled then [one.disabledPath] else []) + rest.alreadyDisabled)
  }

  /** No visited directory is the disabled name of a visited directory. */
  ghost predicate Independent(dirs: seq<Path>)
  {
    forall i, j | 0 <= i < |dirs| && 0 <= j < |dirs| :: dirs[i] != DisabledPath(dirs[j])
  }

  lemma {:induction false} DisabledPathInjective(a: Path, b: Path)
    requires DisabledPath(a) == DisabledPath(b)
    ensures a == b
  {
    assert a == DisabledPath(a)[..|a|];
    assert b == DisabledPath(b)[..|b|];
  }

  /**
   * When no visited directory is the disabled name of another, the loop
   * acts on each directory as a single `disable_node` call would: the
   * directory survives only if its disabled name was already taken, the
   * disabled name exists afterwards if either existed before, and the
   * directory is reported as disabled exactly when it was renamed.
   */
  lemma {:induction false} DisableEachPerDirectory(fs: FileSystem, dirs: seq<Path>)
    requires Independent(dirs)
    ensures forall i | 0 <= i < |dirs| ::
      && (dirs[i] in DisableEach(fs, dirs).fs <==> dirs[i] in fs && DisabledPath(dirs[i]) in fs)
      && (DisabledPath(dirs[i]) in DisableEach(fs, dirs).fs <==> dirs[i] in fs || DisabledPath(dirs[i]) in fs)
      && (DisabledPath(dirs[i]) in DisableEach(fs, dirs).disabled <==> dirs[i] in fs && DisabledPath(dirs[i]) !in fs)
    decreases |dirs|
  {
    if |dirs| > 0 {
      var s := DisableEach(fs, dirs);
      var one := DisableNode(fs, dirs[0]);
      var tail := dirs[1..];
      var rest := DisableEach(one.fs, tail);
      assert Independent(tail) by {
        forall i, j | 0 <= i < |tail| && 0 <= j < |tail|
          ensures tail[i] != DisabledPath(tail[j])
        {
          assert tail[i] == dirs[i + 1] && tail[j] == dirs[j + 1];
        }
      }
      DisableEachPerDirectory(one.fs, tail);
      forall i | 0 <= i < |dirs|
        ensures && (dirs[i] in s.fs <==> dirs[i] in fs && DisabledPath(dirs[i]) in fs)
                && (DisabledPath(dirs[i]) in s.fs <==> dirs[i] in fs || DisabledPath(dirs[i]) in fs)
                && (DisabledPath(dirs[i]) in s.disabled <==> dirs[i] in fs && DisabledPath(dirs[i]) !in fs)
      {
        var d := dirs[i];
        if d == dirs[0] {
          if d in tail {
            var j :| 0 <= j < |tail| && tail[j] == d;
          } else {
            UntouchedByRest(d, dirs);
          }
        } else {
          assert d != DisabledPath(dirs[0]) && dirs[0] != DisabledPath(d);
          if DisabledPath(d) == DisabledPath(dirs[0]) {
            DisabledPathInjective(d, dirs[0]);
          }
          assert SameAt(fs, one.fs, d) && SameAt(fs, one.fs, DisabledPath(d));
          assert tail[i - 1] == d;
        }
      }
    }
  }

  /** A directory visited first and never again is left alone by the rest of the loop. */
  lemma {:induction false} UntouchedByRest(d: Path, dirs: seq<Path>)
    requires Independent(dirs)
    requires |dirs| > 0 && d == dirs[0] && d !in dirs[1..]
    ensures !Touched(d, dirs[1..]) && !Touched(DisabledPath(d), dirs[1..])
    ensures forall fs :: DisabledPath(d) !in DisableEach(fs, dirs[1..]).disabled
    ensures forall fs :: SameAt(fs, DisableEach(fs, dirs[1..]).fs, d)
    ensures forall fs :: SameAt(fs, DisableEach(fs, dirs[1..]).fs, DisabledPath(d))
  {
    var tail := dirs[1..];
    forall j | 0 <= j < |tail|
      ensures d != tail[j] && d != DisabledPath(tail[j])
      ensures DisabledPath(d) != tail[j] && DisabledPath(d) != DisabledPath(tail[j])
    {
      assert tail[j] == dirs[j + 1];
      if DisabledPath(d) == DisabledPath(tail[j]) {
        DisabledPathInjective(d, tail[j]);
      }
    }
  }

  /** Visiting directories that are all settled changes nothing and disables nothing. */
  lemma {:induction false} DisableEachSettledIsNoop(fs: FileSystem, dirs: seq<Path>)
    requires forall i | 0 <= i < |dirs| :: Settled(fs, dirs[i])
    ensures DisableEach(fs, dirs).fs == fs
    ensures DisableEach(fs, dirs).disabled == []
    decreases |dirs|
  {
    if |dirs| > 0 {
      assert forall i | 0 <= i < |dirs[1..]| :: dirs[1..][i] == dirs[i + 1];
      DisableEachSettledIsNoop(fs, dirs[1..]);
    }
  }

  // ---------------------------------------------------------------------
  // main
  // ---------------------------------------------------------------------

  /** Everything `main` produces: the records, the failures table, the manifest written, the filesystem afterwards. */
  datatype PreflightRun = PreflightRun(
    results: seq<PreflightResult>,
    failures: seq<(string, string)>,
    manifest: seq<JsonValue>,
    fs: FileSystem,
    disabled: seq<Path>,
    alreadyDisabled: seq<Path>,
    exitCode: int)

  /** The directories `main` hands to `disable_node`, given its failures table. */
  function DirsToDisable(config: Config, repoRoot: Path, failures: seq<(string, string)>): seq<Path>
  {
    PlannedDirs(config.dependentNodes, CustomNodesDir(repoRoot), FailedNames(failures))
  }

  /**
   * `main()`: probe every backend, write the manifest (old entries then
   * the new records), and, when `ComfyUI/custom_nodes` exists, run
   * `disable_node` on each plugin directory mapped to a failed backend.
   * The exit status is always 0, and nothing outside the manifest and the
   * visited directories (with their disabled names) changes.
   */
  function Preflight(config: Config, repoRoot: Path, importer: Importer, fs: FileSystem, readJson: Path -> Decoded)
    : (run: PreflightRun)
    ensures run.exitCode == 0
    ensures run.results == RunChecks(config.checks, importer).results
    ensures run.failures == RunChecks(config.checks, importer).failures
    ensures run.manifest == LoadExistingManifest(fs, ManifestPath(repoRoot), readJson) + EncodeResults(run.results)
    ensures IsFile(run.fs, ManifestPath(repoRoot))
    ensures CustomNodesDir(repoRoot) !in fs ==>
      run.fs == fs[ManifestPath(repoRoot) := File] && run.disabled == [] && run.alreadyDisabled == []
    ensures forall q | q != ManifestPath(repoRoot) && !Touched(q, DirsToDisable(config, repoRoot, run.failures)) ::
      SameAt(fs, run.fs, q)
  {
    var checks := RunChecks(config.checks, importer);
    var manifestPath := ManifestPath(repoRoot);
    var existing := LoadExistingManifest(fs, manifestPath, readJson);
    var manifest := WriteManifest(existing, checks.results).items;
    var written := fs[manifestPath := File];
    assert CustomNodesDir(repoRoot) in written <==> CustomNodesDir(repoRoot) in fs by {
      assert |manifestPath| < |CustomNodesDir(repoRoot)|;
    }
    if CustomNodesDir(repoRoot) !in written then
      PreflightRun(checks.results, checks.failures, manifest, written, [], [], 0)
    else
      var dirs := DirsToDisable(config, repoRoot, checks.failures);
      ManifestNotVisited(config, repoRoot, checks.failures);
      var sweep := DisableEach(written, dirs);
      PreflightRun(checks.results, checks.failures, manifest, sweep.fs, sweep.disabled, sweep.alreadyDisabled, 0)
  }

  /** Every visited directory is a plugin name under `custom_nodes`, so it is longer than the manifest path. */
  lemma {:induction false} ManifestNotVisited(config: Config, repoRoot: Path, failures: seq<(string, string)>)
    ensures !Touched(ManifestPath(repoRoot), DirsToDisable(config, repoRoot, failures))
    ensures !Touched(CustomNodesDir(repoRoot), DirsToDisable(config, repoRoot, failures))
  {
    var customNodes := CustomNodesDir(repoRoot);
    var dirs := DirsToDisable(config, repoRoot, failures);
    var failed := FailedNames(failures);
    assert |ManifestPath(repoRoot)| < |customNodes|;
    forall i | 0 <= i < |dirs|
      ensures |dirs[i]| > |customNodes|
    {
      assert dirs[i] in dirs;
      var k, n :| 0 <= k < |failed| && n in Dependents(config.dependentNodes, failed[k]) && dirs[i] == Child(customNodes, n);
    }
  }

  /**
   * `main` appends exactly one record per configured check, in order; a
   * record has an error exactly when it failed; and a backend is a key of
   * `failures` exactly when its check failed.
   */
  lemma {:induction false} PreflightRecordsEveryCheck(config: Config, repoRoot: Path, importer: Importer, fs: FileSystem, readJson: Path -> Decoded)
    ensures var run := Preflight(config, repoRoot, importer, fs, readJson);
      && |run.results| == |config.checks|
      && (forall i | 0 <= i < |config.checks| ::
            && run.results[i].name == config.checks[i].name
            && run.results[i].source == RESULT_SOURCE
            && (run.results[i].success <==> Importable(config.checks[i].imports, importer))
            && (run.results[i].errorIfAny.None? <==> run.results[i].success)
            && run.results[i].version == TryImport(config.checks[i].imports, importer).version
            && run.results[i].errorIfAny == (if run.results[i].success then None
                                             else TryImport(config.checks[i].imports, importer).error))
      && (forall name ::
            name in FailedNames(run.failures) <==>
              exists i | 0 <= i < |config.checks| ::
                config.checks[i].name == name && !Importable(config.checks[i].imports, importer))
  {
  }

  /**
   * No plugin name in the table is another plugin name followed by
   * ".disabled", so the directories `main` visits never collide with one
   * another's disabled names.
   */
  ghost predicate DistinctDisabledNames(dependentNodes: map<string, seq<string>>)
  {
    forall b, c, n, m | n in Dependents(dependentNodes, b) && m in Dependents(dependentNodes, c) ::
      n != m + DISABLED_SUFFIX
  }

  /** The shipped table meets that condition: its plugin names are 16 and 18 characters long. */
  lemma ShippedNamesDistinct()
    ensures DistinctDisabledNames(SHIPPED.dependentNodes)
  {
    forall b, c, n, m | n in Dependents(SHIPPED.dependentNodes, b) && m in Dependents(SHIPPED.dependentNodes, c)
      ensures n != m + DISABLED_SUFFIX
    {
      assert |n| == 16 || |n| == 18;
      assert |m| == 16 || |m| == 18;
    }
  }

  /**
   * A plugin name that `pathlib` joins as exactly one new path component:
   * non-empty, neither "." nor "..", and free of the separators "/" and
   * "\\" and of ":", which on Windows makes a drive-qualified path. Only for such
   * names is `custom_nodes / name` the path `Child(custom_nodes, name)`
   * and `with_name(name + ".disabled")` the path `DisabledPath` names.
   */
  predicate PlainName(n: string)
  {
    && n != "" && n != "." && n != ".."
    && forall k | 0 <= k < |n| :: n[k] != '/' && n[k] != '\\' && n[k] != ':'
  }

  ghost predicate PlainPluginNames(dependentNodes: map<string, seq<string>>)
  {
    forall b, n | n in Dependents(dependentNodes, b) :: PlainName(n)
  }

  /** Every plugin name in the shipped table is a plain name. */
  lemma ShippedNamesPlain()
    ensures PlainPluginNames(SHIPPED.dependentNodes)
  {
    forall b, n | n in Dependents(SHIPPED.dependentNodes, b)
      ensures PlainName(n)
    {
      assert n == "ComfyUI-nunchaku" || n == "ComfyUI-RadialAttn";
    }
  }

  lemma {:induction false} ChildCancels(parent: Path, a: string, b: string)
    ensures Child(parent, a) == Child(parent, b) ==> a == b
  {
    if Child(parent, a) == Child(parent, b) {
      assert a == Child(parent, a)[|parent| + 1..];
      assert b == Child(parent, b)[|parent| + 1..];
    }
  }

  lemma {:induction false} DirsToDisableIndependent(config: Config, repoRoot: Path, failures: seq<(string, string)>)
    requires DistinctDisabledNames(config.dependentNodes)
    ensures Independent(DirsToDisable(config, repoRoot, failures))
  {
    var customNodes := CustomNodesDir(repoRoot);
    var dirs := DirsToDisable(config, repoRoot, failures);
    var failed := FailedNames(failures);
    forall i, j | 0 <= i < |dirs| && 0 <= j < |dirs|
      ensures dirs[i] != DisabledPath(dirs[j])
    {
      assert dirs[i] in dirs && dirs[j] in dirs;
      PlannedDirsDistinct(config.dependentNodes, customNodes, failed, dirs[i], dirs[j]);
    }
  }

  /** No planned directory is the disabled name of another planned directory. */
  lemma {:induction false} PlannedDirsDistinct(dependentNodes: map<string, seq<string>>, customNodes: Path, failed: seq<string>, d: Path, e: Path)
    requires DistinctDisabledNames(dependentNodes)
    requires d in PlannedDirs(dependentNodes, customNodes, failed)
    requires e in PlannedDirs(dependentNodes, customNodes, failed)
    ensures d != DisabledPath(e)
  {
    var k, n :| 0 <= k < |failed| && n in Dependents(dependentNodes, failed[k]) && d == Child(customNodes, n);
    var l, m :| 0 <= l < |failed| && m in Dependents(dependentNodes, failed[l]) && e == Child(customNodes, m);
    DisabledChild(customNodes, m);
    ChildCancels(customNodes, n, m + DISABLED_SUFFIX);
  }

  /** Disabling a plugin directory renames it within `custom_nodes`. */
  lemma {:induction false} DisabledChild(parent: Path, name: string)
    ensures DisabledPath(Child(parent, name)) == Child(parent, name + DISABLED_SUFFIX)
  {
    assert (parent + "/" + name) + DISABLED_SUFFIX == parent + "/" + (name + DISABLED_SUFFIX);
  }

  /**
   * A path other than the manifest that changed between `fs` and `fs'`,
   * when only the manifest and the visited directories may change, is a
   * visited directory or its disabled name.
   */
  lemma {:induction false} ChangedIsVisited(fs: FileSystem, fs': FileSystem, manifest: Path, dirs: seq<Path>, q: Path)
    requires forall p | p != manifest && !Touched(p, dirs) :: SameAt(fs, fs', p)
    requires q != manifest && !SameAt(fs, fs', q)
    ensures Touched(q, dirs)
  {
  }

  /**
   * Gating: apart from the manifest, the only paths `main` changes are
   * plugin directories mapped in `DEPENDENT_NODES` to a backend whose
   * import failed, and their disabled names. If `custom_nodes` is missing,
   * nothing but the manifest changes.
   */
  lemma {:induction false} PreflightGating(config: Config, repoRoot: Path, importer: Importer, fs: FileSystem, readJson: Path -> Decoded)
    ensures var run := Preflight(config, repoRoot, importer, fs, readJson);
      forall q | q != ManifestPath(repoRoot) && !SameAt(fs, run.fs, q) ::
        && CustomNodesDir(repoRoot) in fs
        && exists i, n | 0 <= i < |config.checks| && n in Dependents(config.dependentNodes, config.checks[i].name) ::
             && !Importable(config.checks[i].imports, importer)
             && (q == Child(CustomNodesDir(repoRoot), n) || q == DisabledPath(Child(CustomNodesDir(repoRoot), n)))
  {
    var run := Preflight(config, repoRoot, importer, fs, readJson);
    if CustomNodesDir(repoRoot) in fs {
      forall q | q != ManifestPath(repoRoot) && !SameAt(fs, run.fs, q)
        ensures exists i, n | 0 <= i < |config.checks| && n in Dependents(config.dependentNodes, config.checks[i].name) ::
               && !Importable(config.checks[i].imports, importer)
               && (q == Child(CustomNodesDir(repoRoot), n) || q == DisabledPath(Child(CustomNodesDir(repoRoot), n)))
      {
        ChangedIsVisited(fs, run.fs, ManifestPath(repoRoot), DirsToDisable(config, repoRoot, run.failures), q);
        VisitedIsDependentOfFailure(config, CustomNodesDir(repoRoot), importer, q);
      }
    } else {
      forall q | q != ManifestPath(repoRoot)
        ensures SameAt(fs, run.fs, q)
      {
      }
    }
  }

  /** A directory visited or renamed belongs to a failed check's backend. */
  lemma {:induction false} VisitedIsDependentOfFailure(config: Config, customNodes: Path, importer: Importer, q: Path)
    requires Touched(q, PlannedDirs(config.dependentNodes, customNodes, FailedNames(RunChecks(config.checks, importer).failures)))
    ensures exists i, n | 0 <= i < |config.checks| && n in Dependents(config.dependentNodes, config.checks[i].name) ::
      && !Importable(config.checks[i].imports, importer)
      && (q == Child(customNodes, n) || q == DisabledPath(Child(customNodes, n)))
  {
    var checks := config.checks;
    var failed := FailedNames(RunChecks(checks, importer).failures);
    var dirs := PlannedDirs(config.dependentNodes, customNodes, failed);
    var j :| 0 <= j < |dirs| && (q == dirs[j] || q == DisabledPath(dirs[j]));
    assert dirs[j] in dirs;
    var k, n :| 0 <= k < |failed| && n in Dependents(config.dependentNodes, failed[k]) && dirs[j] == Child(customNodes, n);
    assert failed[k] in failed;
    var i :| 0 <= i < |checks| && checks[i].name == failed[k] && !Importable(checks[i].imports, importer);
    assert n in Dependents(config.dependentNodes, checks[i].name);
  }

  /**
   * When `custom_nodes` exists, each plugin directory mapped to a failed
   * backend ends up as one `disable_node` call would leave it: the
   * directory remains only if its disabled name was already taken, the
   * disabled name exists afterwards if either existed before, and the
   * directory is reported as disabled exactly when it was renamed.
   */
  lemma {:induction false} PreflightDisablesDependents(config: Config, repoRoot: Path, importer: Importer, fs: FileSystem,
                                    readJson: Path -> Decoded, i: int, n: string)
    requires DistinctDisabledNames(config.dependentNodes)
    requires CustomNodesDir(repoRoot) in fs
    requires 0 <= i < |config.checks| && !Importable(config.checks[i].imports, importer)
    requires n in Dependents(config.dependentNodes, config.checks[i].name)
    ensures var run := Preflight(config, repoRoot, importer, fs, readJson);
      var d := Child(CustomNodesDir(repoRoot), n);
      && (d in run.fs <==> d in fs && DisabledPath(d) in fs)
      && (DisabledPath(d) in run.fs <==> d in fs || DisabledPath(d) in fs)
      && (DisabledPath(d) in run.disabled <==> d in fs && DisabledPath(d) !in fs)
  {
    var run := Preflight(config, repoRoot, importer, fs, readJson);
    var customNodes := CustomNodesDir(repoRoot);
    var manifestPath := ManifestPath(repoRoot);
    var d := Child(customNodes, n);
    var failures := RunChecks(config.checks, importer).failures;
    var dirs := DirsToDisable(config, repoRoot, failures);
    var written := fs[manifestPath := File];
    FailedDependentIsVisited(config, customNodes, importer, i, n);
    var j :| 0 <= j < |dirs| && dirs[j] == d;
    ManifestNotVisited(config, repoRoot, failures);
    assert d != manifestPath && DisabledPath(d) != manifestPath by {
      assert !Touched(manifestPath, dirs);
    }
    DirsToDisableIndependent(config, repoRoot, failures);
    DisableEachPerDirectory(written, dirs);
    PreflightSweep(config, repoRoot, importer, fs, readJson);
    var sweep := DisableEach(written, dirs);
    assert (d in written <==> d in fs) && (DisabledPath(d) in written <==> DisabledPath(d) in fs);
    assert d in sweep.fs <==> d in written && DisabledPath(d) in written;
    assert DisabledPath(d) in sweep.fs <==> d in written || DisabledPath(d) in written;
    assert DisabledPath(d) in sweep.disabled <==> d in written && DisabledPath(d) !in written;
  }

  /** With `custom_nodes` present, the filesystem and `disabled` list are those of the disabling loop over the written tree. */
  lemma {:induction false} PreflightSweep(config: Config, repoRoot: Path, importer: Importer, fs: FileSystem, readJson: Path -> Decoded)
    requires CustomNodesDir(repoRoot) in fs
    ensures var run := Preflight(config, repoRoot, importer, fs, readJson);
      var sweep := DisableEach(fs[ManifestPath(repoRoot) := File],
                               DirsToDisable(config, repoRoot, RunChecks(config.checks, importer).failures));
      run.fs == sweep.fs && run.disabled == sweep.disabled
  {
    assert |ManifestPath(repoRoot)| < |CustomNodesDir(repoRoot)|;
  }

  /** Every plugin directory mapped to a failed backend is visited. */
  lemma {:induction false} FailedDependentIsVisited(config: Config, customNodes: Path, importer: Importer, i: int, n: string)
    requires 0 <= i < |config.checks| && !Importable(config.checks[i].imports, importer)
    requires n in Dependents(config.dependentNodes, config.checks[i].name)
    ensures Child(customNodes, n) in
      PlannedDirs(config.dependentNodes, customNodes, FailedNames(RunChecks(config.checks, importer).failures))
  {
    var failed := FailedNames(RunChecks(config.checks, importer).failures);
    assert config.checks[i].name in failed;
    var k :| 0 <= k < |failed| && failed[k] == config.checks[i].name;
    assert n in Dependents(config.dependentNodes, failed[k]);
  }

  /**
   * After a run that found `custom_nodes`, `custom_nodes` is still there and
   * every visited directory is settled: gone, or next to its disabled name.
   */
  lemma {:induction false} FirstRunSettles(config: Config, repoRoot: Path, importer: Importer, fs: FileSystem, readJson: Path -> Decoded)
    requires DistinctDisabledNames(config.dependentNodes)
    requires CustomNodesDir(repoRoot) in fs
    ensures var first := Preflight(config, repoRoot, importer, fs, readJson);
      var dirs := DirsToDisable(config, repoRoot, RunChecks(config.checks, importer).failures);
      && CustomNodesDir(repoRoot) in first.fs
      && forall t | 0 <= t < |dirs| :: Settled(first.fs, dirs[t])
  {
    var first := Preflight(config, repoRoot, importer, fs, readJson);
    var customNodes := CustomNodesDir(repoRoot);
    var manifestPath := ManifestPath(repoRoot);
    var checks := RunChecks(config.checks, importer);
    var dirs := DirsToDisable(config, repoRoot, checks.failures);
    ManifestNotVisited(config, repoRoot, checks.failures);
    DirsToDisableIndependent(config, repoRoot, checks.failures);
    SweepSettles(fs[manifestPath := File], dirs);
    assert SameAt(fs, first.fs, customNodes);
  }

  /** Without chains of disabled names, the loop leaves every visited directory settled. */
  lemma {:induction false} SweepSettles(fs: FileSystem, dirs: seq<Path>)
    requires Independent(dirs)
    ensures forall t | 0 <= t < |dirs| :: Settled(DisableEach(fs, dirs).fs, dirs[t])
  {
    DisableEachPerDirectory(fs, dirs);
  }

  /** A second run on the filesystem the first one left renames nothing. */
  lemma {:induction false} RerunChangesNothing(config: Config, repoRoot: Path, importer: Importer, fs: FileSystem,
                            readJson: Path -> Decoded, readJson': Path -> Decoded)
    requires DistinctDisabledNames(config.dependentNodes)
    ensures var first := Preflight(config, repoRoot, importer, fs, readJson);
      var second := Preflight(config, repoRoot, importer, first.fs, readJson');
      second.fs == first.fs && second.disabled == []
  {
    var first := Preflight(config, repoRoot, importer, fs, readJson);
    var manifestPath := ManifestPath(repoRoot);
    var checks := RunChecks(config.checks, importer);
    var dirs := DirsToDisable(config, repoRoot, checks.failures);
    assert first.fs[manifestPath := File] == first.fs;
    if CustomNodesDir(repoRoot) in fs {
      FirstRunSettles(config, repoRoot, importer, fs, readJson);
      DisableEachSettledIsNoop(first.fs, dirs);
    }
  }

  /**
   * Running the preflight a second time with the same import outcomes, on
   * the filesystem the first run left, renames nothing and reports nothing
   * as disabled; and if the second run reads back the manifest the first
   * one wrote, its manifest is the first one's followed by the new records.
   */
  lemma {:induction false} PreflightRerunIsStable(config: Config, repoRoot: Path, importer: Importer, fs: FileSystem,
                               readJson: Path -> Decoded, readJson': Path -> Decoded)
    requires DistinctDisabledNames(config.dependentNodes)
    ensures var first := Preflight(config, repoRoot, importer, fs, readJson);
      var second := Preflight(config, repoRoot, importer, first.fs, readJson');
      && second.fs == first.fs
      && second.disabled == []
      && second.results == first.results
      && (readJson'(ManifestPath(repoRoot)) == Parsed(JArray(first.manifest)) ==>
            second.manifest == first.manifest + EncodeResults(second.results))
  {
    RerunChangesNothing(config, repoRoot, importer, fs, readJson, readJson');
  }
}

=== FILE: qa_validate_workflow.dfy ===
/**
 * The workflow fixture check: locate the portable root, read the workflow
 * JSON, and require a non-empty node list covering five node types and a
 * `ComfyUI` directory under the portable root. Every check ends the run on
 * its first failure, in a fixed order.
 *
 * The filesystem is a map from paths to entry kinds; decoding the workflow
 * file is an oracle from path to decoded JSON.
 */
module QaValidateWorkflow {

  import opened Results
  import opened Paths
  import opened Json
  import opened Text

  const PORTABLE_DIR_NAME := "ComfyUI_Windows_portable"

  /** The node types a minimal text-to-image workflow must use. */
  const REQUIRED_TYPES: set<string> :=
    {"CheckpointLoaderSimple", "CLIPTextEncode", "EmptyLatentImage", "KSampler", "VAEDecode"}

  /** `REQUIRED_TYPES` in Python's string order. */
  const REQUIRED_IN_ORDER: seq<string> :=
    ["CLIPTextEncode", "CheckpointLoaderSimple", "EmptyLatentImage", "KSampler", "VAEDecode"]

  lemma RequiredInOrderIsSortedRequired()
    ensures Sorted(REQUIRED_IN_ORDER)
    ensures forall t :: t in REQUIRED_IN_ORDER <==> t in REQUIRED_TYPES
  {
    var r := REQUIRED_IN_ORDER;
    assert Below(r[0], r[1]) && Below(r[1], r[2]) && Below(r[2], r[3]) && Below(r[3], r[4]);
    forall i, j | 0 <= i < j < |r|
      ensures Below(r[i], r[j])
    {
      if j > i + 1 {
        assert Below(r[i], r[i + 1]);
        BelowChain(r, i, j);
      }
    }
  }

  /** Adjacent order extends to any two positions. */
  lemma {:induction false} BelowChain(r: seq<string>, i: int, j: int)
    requires 0 <= i < j < |r|
    requires forall k | 0 <= k < |r| - 1 :: Below(r[k], r[k + 1])
    ensures Below(r[i], r[j])
    decreases j - i
  {
    if j > i + 1 {
      BelowChain(r, i + 1, j);
      BelowTransitive(r[i], r[i + 1], r[j]);
    }
  }

  // ---------------------------------------------------------------------
  // Locating the portable root
  // ---------------------------------------------------------------------

  function DirectRoot(base: Path): Path
  {
    Child(base, PORTABLE_DIR_NAME)
  }

  function NestedRoot(base: Path): Path
  {
    Child(Child(base, "builder"), PORTABLE_DIR_NAME)
  }

  /**
   * `resolve_portable_root(base)`: the direct location when it is a
   * directory, otherwise the nested one when that is; it fails, naming
   * `base`, exactly when neither is a directory.
   */
  function ResolvePortableRoot(fs: FileSystem, base: Path): (r: Result<Path, Path>)
    ensures r.Success? <==> IsDir(fs, DirectRoot(base)) || IsDir(fs, NestedRoot(base))
    ensures r.Success? ==> IsDir(fs, r.value) && (r.value == DirectRoot(base) || r.value == NestedRoot(base))
    ensures IsDir(fs, DirectRoot(base)) ==> r == Success(DirectRoot(base))
    ensures r.Failure? ==> r.error == base
  {
    if IsDir(fs, DirectRoot(base)) then Success(DirectRoot(base))
    else if IsDir(fs, NestedRoot(base)) then Success(NestedRoot(base))
    else Failure(base)
  }

  /** The two candidate roots are different paths, so the preference between them is observable. */
  lemma {:induction false} CandidateRootsDiffer(base: Path)
    ensures DirectRoot(base) != NestedRoot(base)
  {
    assert |DirectRoot(base)| != |NestedRoot(base)|;
  }

  // ---------------------------------------------------------------------
  // Arguments and the workflow path
  // ---------------------------------------------------------------------

  /** `--root` (already resolved) and the optional `--workflow`. */
  datatype Args = Args(root: Path, workflow: Option<Path>)

  /** Spells out the path of the fixture that `WorkflowPath` falls back to. */
  lemma {:induction false} FixtureUnderRoot(root: Path)
    ensures Child(Child(Child(root, "tests"), "workflows"), "minimal_text2img.json")
            == root + "/tests" + "/workflows" + "/minimal_text2img.json"
  {
    var tests := Child(root, "tests");
    assert tests == root + "/tests";
    assert Child(tests, "workflows") == root + "/tests" + "/workflows";
  }

  /** A given `--workflow` is used as is; otherwise the fixture under the repository root. */
  function WorkflowPath(args: Args): (p: Path)
    ensures args.workflow.Some? ==> p == args.workflow.value
    ensures args.workflow.None? ==> p == args.root + "/tests" + "/workflows" + "/minimal_text2img.json"
  {
    match args.workflow
    case Some(path) => path
    case None =>
      FixtureUnderRoot(args.root);
      Child(Child(Child(args.root, "tests"), "workflows"), "minimal_text2img.json")
  }

  // ---------------------------------------------------------------------
  // Nodes and their types
  // ---------------------------------------------------------------------

  /** `data.get("nodes") or []` */
  function NodesValue(data: map<string, JsonValue>): (v: JsonValue)
    ensures Truthy(v) <==> "nodes" in data && Truthy(data["nodes"])
    ensures Truthy(v) ==> v == data["nodes"]
    ensures !Truthy(v) ==> v == JArray([])
  {
    match Get(data, "nodes")
    case Some(nodes) => if Truthy(nodes) then nodes else JArray([])
    case None => JArray([])
  }

  /**
   * A node `{node.get("type") for node in nodes}` can take without raising:
   * a dict whose "type", if present, is hashable.
   */
  predicate WellFormedNode(node: JsonValue)
  {
    node.JObject? && ("type" in node.fields ==> Hashable(node.fields["type"]))
  }

  /** The node's "type" when it is a string. */
  function TypeName(node: JsonValue): Option<string>
  {
    if node.JObject? && "type" in node.fields && node.fields["type"].JString? then
      Some(node.fields["type"].s)
    else
      None
  }

  /** The string type names among the nodes' "type" fields. */
  function PresentTypes(nodes: seq<JsonValue>): (present: set<string>)
    ensures forall t :: t in present <==> exists i | 0 <= i < |nodes| :: TypeName(nodes[i]) == Some(t)
  {
    set i | 0 <= i < |nodes| && TypeName(nodes[i]).Some? :: TypeName(nodes[i]).value
  }

  /** Duplicated or extra nodes only ever add to the set of present types. */
  lemma {:induction false} PresentTypesOfConcat(a: seq<JsonValue>, b: seq<JsonValue>)
    ensures PresentTypes(a + b) == PresentTypes(a) + PresentTypes(b)
  {
    forall t | t in PresentTypes(a + b)
      ensures t in PresentTypes(a) + PresentTypes(b)
    {
      var i :| 0 <= i < |a + b| && TypeName((a + b)[i]) == Some(t);
      if i >= |a| {
        assert TypeName(b[i - |a|]) == Some(t);
      }
    }
    forall t | t in PresentTypes(b)
      ensures t in PresentTypes(a + b)
    {
      var i :| 0 <= i < |b| && TypeName(b[i]) == Some(t);
      assert (a + b)[|a| + i] == b[i];
    }
    forall t | t in PresentTypes(a)
      ensures t in PresentTypes(a + b)
    {
      var i :| 0 <= i < |a| && TypeName(a[i]) == Some(t);
      assert (a + b)[i] == a[i];
    }
  }

  /**
   * `sorted(required - node_types)`: the required types that are not
   * present, in Python's string order, without repeats.
   */
  function MissingTypes(present: set<string>): (missing: seq<string>)
    ensures Sorted(missing)
    ensures forall t :: t in missing <==> t in REQUIRED_TYPES && t !in present
    ensures missing == [] <==> REQUIRED_TYPES <= present
  {
    RequiredInOrderIsSortedRequired();
    var missing := KeepAbsent(REQUIRED_IN_ORDER, present);
    assert missing == [] <==> REQUIRED_TYPES <= present by {
      if missing != [] {
        assert missing[0] in missing;
      }
    }
    missing
  }

  /**
   * The reported list is the only strictly sorted enumeration of the
   * required types minus the present ones.
   */
  lemma {:induction false} MissingTypesIsSortedDifference(present: set<string>, listed: seq<string>)
    requires Sorted(listed)
    requires forall t :: t in listed <==> t in REQUIRED_TYPES - present
    ensures listed == MissingTypes(present)
  {
    SortedUnique(listed, MissingTypes(present));
  }

  /**
   * Only which required types are present matters: extra types, and how
   * often a type occurs, do not change the report; more types present
   * never adds a missing one.
   */
  lemma {:induction false} MissingTypesDependsOnRequiredOnly(p: set<string>, q: set<string>)
    ensures p * REQUIRED_TYPES == q * REQUIRED_TYPES ==> MissingTypes(p) == MissingTypes(q)
    ensures p <= q ==> forall t | t in MissingTypes(q) :: t in MissingTypes(p)
  {
    if p * REQUIRED_TYPES == q * REQUIRED_TYPES {
      forall t
        ensures t in MissingTypes(p) <==> t in REQUIRED_TYPES - q
      {
        if t in REQUIRED_TYPES {
          assert t in p <==> t in p * REQUIRED_TYPES;
          assert t in q <==> t in q * REQUIRED_TYPES;
        }
      }
      MissingTypesIsSortedDifference(q, MissingTypes(p));
    }
  }

  // ---------------------------------------------------------------------
  // main
  // ---------------------------------------------------------------------

  /** The checks `main` makes, in the order it makes them. */
  datatype Stage = ResolveRoot | FindWorkflow | DecodeWorkflow | CheckNodes | CheckTypes | CheckComfyUI

  function Rank(s: Stage): (rank: nat)
    ensures rank <= 5
  {
    match s
    case ResolveRoot => 0
    case FindWorkflow => 1
    case DecodeWorkflow => 2
    case CheckNodes => 3
    case CheckTypes => 4
    case CheckComfyUI => 5
  }

  /**
   * How a run ends early: the `SystemExit` raised by each check, or an
   * exception the script does not catch (a top-level value that is not a
   * dict, a truthy "nodes" that is not a list, a node that is not a dict or
   * whose "type" is a list or dict), tagged with the check it arose in.
   */
  datatype QaFailure =
    | PortableRootNotFound(base: Path)
    | WorkflowNotFound(path: Path)
    | InvalidJson(message: string)
    | NoNodes
    | MissingRequiredTypes(missing: seq<string>)
    | ComfyUIMissing(portableRoot: Path)
    | Uncaught(stage: Stage)

  function StageOf(f: QaFailure): Stage
  {
    match f
    case PortableRootNotFound(_) => ResolveRoot
    case WorkflowNotFound(_) => FindWorkflow
    case InvalidJson(_) => DecodeWorkflow
    case NoNodes => CheckNodes
    case MissingRequiredTypes(_) => CheckTypes
    case ComfyUIMissing(_) => CheckComfyUI
    case Uncaught(stage) => stage
  }

  const MISSING_TYPES_PREFIX := "Missing required node types: "

  /**
   * The text of the `SystemExit`; none for an uncaught exception. A
   * missing-types report is the prefix followed by the names joined with
   * ", ", so the list can be read back from the text.
   */
  function ExitMessage(f: QaFailure): (m: Option<string>)
    ensures m.None? <==> f.Uncaught?
    ensures f.MissingRequiredTypes? && f.missing != [] && CommaFree(f.missing) ==>
      && |MISSING_TYPES_PREFIX| <= |m.value|
      && m.value[..|MISSING_TYPES_PREFIX|] == MISSING_TYPES_PREFIX
      && Split(m.value[|MISSING_TYPES_PREFIX|..]) == f.missing
  {
    match f
    case PortableRootNotFound(base) => Some(PORTABLE_DIR_NAME + " not found under " + base)
    case WorkflowNotFound(path) => Some("Workflow file not found: " + path)
    case InvalidJson(message) => Some("Invalid JSON in workflow: " + message)
    case NoNodes => Some("Workflow has no nodes")
    case MissingRequiredTypes(missing) =>
      var joined := Join(missing, ", ");
      if missing != [] && CommaFree(missing) then
        SplitJoin(missing);
        assert (MISSING_TYPES_PREFIX + joined)[|MISSING_TYPES_PREFIX|..] == joined;
        Some(MISSING_TYPES_PREFIX + joined)
      else
        Some(MISSING_TYPES_PREFIX + joined)
    case ComfyUIMissing(root) => Some("ComfyUI directory missing under " + root)
    case Uncaught(_) => None
  }

  lemma RequiredTypesCommaFree()
    ensures forall t | t in REQUIRED_TYPES :: ',' !in t
  {
  }

  /**
   * The report for a workflow that lacks some required type reads back as
   * exactly `sorted(required - node_types)`: no required type contains the
   * separator.
   */
  lemma {:induction false} MissingReportReadsBack(present: set<string>)
    requires !(REQUIRED_TYPES <= present)
    ensures var m := ExitMessage(MissingRequiredTypes(MissingTypes(present))).value;
      && m[..|MISSING_TYPES_PREFIX|] == MISSING_TYPES_PREFIX
      && Split(m[|MISSING_TYPES_PREFIX|..]) == MissingTypes(present)
      && Sorted(Split(m[|MISSING_TYPES_PREFIX|..]))
      && forall t :: t in Split(m[|MISSING_TYPES_PREFIX|..]) <==> t in REQUIRED_TYPES - present
  {
    var missing := MissingTypes(present);
    RequiredTypesCommaFree();
    forall i, k | 0 <= i < |missing| && 0 <= k < |missing[i]|
      ensures missing[i][k] != ','
    {
      assert missing[i] in REQUIRED_TYPES;
    }
    assert CommaFree(missing);
  }

  /** A run that reaches the end. */
  datatype QaPass = QaPass(workflowPath: Path, portableRoot: Path)

  /** A node list Python can scan, whose string types include every required one. */
  predicate CoversRequired(nodes: JsonValue)
  {
    && nodes.JArray?
    && (forall i | 0 <= i < |nodes.items| :: WellFormedNode(nodes.items[i]))
    && REQUIRED_TYPES <= PresentTypes(nodes.items)
  }

  /** The type-coverage check on a node list that was found non-empty. */
  function CheckNodeTypes(nodes: JsonValue): (r: Result<(), QaFailure>)
    ensures r.Success? <==> CoversRequired(nodes)
    ensures r.Failure? ==> StageOf(r.error) == CheckTypes
    ensures r.Failure? ==>
      (r.error.MissingRequiredTypes? <==>
         nodes.JArray? && forall i | 0 <= i < |nodes.items| :: WellFormedNode(nodes.items[i]))
    ensures r.Failure? && r.error.MissingRequiredTypes? ==>
      nodes.JArray? && r.error.missing == MissingTypes(PresentTypes(nodes.items)) && r.error.missing != []
  {
    if !nodes.JArray? then Failure(Uncaught(CheckTypes))
    else if exists i | 0 <= i < |nodes.items| :: !WellFormedNode(nodes.items[i]) then Failure(Uncaught(CheckTypes))
    else
      var missing := MissingTypes(PresentTypes(nodes.items));
      if missing != [] then Failure(MissingRequiredTypes(missing)) else Success(())
  }

  /** The decoded top-level object of the workflow file, if the file decodes to one. */
  function WorkflowObject(args: Args, readJson: Path -> Decoded): Option<map<string, JsonValue>>
  {
    match readJson(WorkflowPath(args))
    case Parsed(JObject(fields)) => Some(fields)
    case _ => None
  }

  /** `main(argv)` after argument parsing, returning how the run ends. */
  function Validate(args: Args, fs: FileSystem, readJson: Path -> Decoded): (r: Result<QaPass, QaFailure>)
    ensures r.Success? ==>
      && r.value.workflowPath == WorkflowPath(args)
      && IsFile(fs, r.value.workflowPath)
      && ResolvePortableRoot(fs, args.root) == Success(r.value.portableRoot)
      && IsDir(fs, Child(r.value.portableRoot, "ComfyUI"))
    ensures r.Failure? && r.error.MissingRequiredTypes? ==>
      && Sorted(r.error.missing)
      && r.error.missing != []
      && forall t :: t in r.error.missing ==> t in REQUIRED_TYPES
    ensures r.Failure? && r.error.MissingRequiredTypes? ==>
      var data := WorkflowObject(args, readJson);
      && data.Some? && "nodes" in data.value && data.value["nodes"].JArray?
      && r.error.missing == MissingTypes(PresentTypes(data.value["nodes"].items))
  {
    match ResolvePortableRoot(fs, args.root)
    case Failure(base) => Failure(PortableRootNotFound(base))
    case Success(portableRoot) =>
      var workflowPath := WorkflowPath(args);
      if !IsFile(fs, workflowPath) then Failure(WorkflowNotFound(workflowPath))
      else
        match readJson(workflowPath)
        case DecodeError(message) => Failure(InvalidJson(message))
        case Parsed(data) =>
          if !data.JObject? then Failure(Uncaught(CheckNodes))
          else
            var nodes := NodesValue(data.fields);
            if !Truthy(nodes) then Failure(NoNodes)
            else
              match CheckNodeTypes(nodes)
              case Failure(f) => Failure(f)
              case Success(_) =>
                if !IsDir(fs, Child(portableRoot, "ComfyUI")) then Failure(ComfyUIMissing(portableRoot))
                else Success(QaPass(workflowPath, portableRoot))
  }

  /** `SystemExit` with a message and uncaught exceptions both exit with status 1. */
  function ExitCode(r: Result<QaPass, QaFailure>): (code: int)
    ensures code == 0 <==> r.Success?
    ensures code == 0 || code == 1
  {
    if r.Success? then 0 else 1
  }

  // ---------------------------------------------------------------------
  // Fail-fast order
  // ---------------------------------------------------------------------

  /**
   * Whether the check of one stage succeeds, stated on the inputs alone
   * (each stage's condition includes whatever it reads being available).
   */
  ghost predicate Passes(s: Stage, args: Args, fs: FileSystem, readJson: Path -> Decoded)
  {
    match s
    case ResolveRoot => IsDir(fs, DirectRoot(args.root)) || IsDir(fs, NestedRoot(args.root))
    case FindWorkflow => IsFile(fs, WorkflowPath(args))
    case DecodeWorkflow => readJson(WorkflowPath(args)).Parsed?
    case CheckNodes =>
      var data := WorkflowObject(args, readJson);
      data.Some? && "nodes" in data.value && Truthy(data.value["nodes"])
    case CheckTypes =>
      var data := WorkflowObject(args, readJson);
      data.Some? && "nodes" in data.value && CoversRequired(data.value["nodes"])
    case CheckComfyUI =>
      if IsDir(fs, DirectRoot(args.root)) then IsDir(fs, Child(DirectRoot(args.root), "ComfyUI"))
      else IsDir(fs, Child(NestedRoot(args.root), "ComfyUI"))
  }

  /** The first stage, in `main`'s order, whose check does not pass. */
  ghost function FirstFailing(args: Args, fs: FileSystem, readJson: Path -> Decoded): Option<Stage>
  {
    if !Passes(ResolveRoot, args, fs, readJson) then Some(ResolveRoot)
    else if !Passes(FindWorkflow, args, fs, readJson) then Some(FindWorkflow)
    else if !Passes(DecodeWorkflow, args, fs, readJson) then Some(DecodeWorkflow)
    else if !Passes(CheckNodes, args, fs, readJson) then Some(CheckNodes)
    else if !Passes(CheckTypes, args, fs, readJson) then Some(CheckTypes)
    else if !Passes(CheckComfyUI, args, fs, readJson) then Some(CheckComfyUI)
    else None
  }

  /** `FirstFailing` names a failing stage all of whose predecessors pass. */
  lemma {:induction false} FirstFailingIsFirst(args: Args, fs: FileSystem, readJson: Path -> Decoded)
    ensures FirstFailing(args, fs, readJson).None? <==> forall s: Stage :: Passes(s, args, fs, readJson)
    ensures FirstFailing(args, fs, readJson).Some? ==>
      var first := FirstFailing(args, fs, readJson).value;
      && !Passes(first, args, fs, readJson)
      && forall s: Stage | Rank(s) < Rank(first) :: Passes(s, args, fs, readJson)
  {
    var first := FirstFailing(args, fs, readJson);
    forall s: Stage | first.None? || Rank(s) < Rank(first.value)
      ensures Passes(s, args, fs, readJson)
    {
      match s
      case ResolveRoot =>
      case FindWorkflow =>
      case DecodeWorkflow =>
      case CheckNodes =>
      case CheckTypes =>
      case CheckComfyUI =>
    }
  }

  /** The run ends with the failure of exactly the first stage that does not pass. */
  lemma {:induction false} ValidateStopsAtFirstFailing(args: Args, fs: FileSystem, readJson: Path -> Decoded)
    ensures var r := Validate(args, fs, readJson);
      && (r.Success? <==> FirstFailing(args, fs, readJson).None?)
      && (r.Failure? ==> FirstFailing(args, fs, readJson) == Some(StageOf(r.error)))
  {
    var r := Validate(args, fs, readJson);
    var wf := WorkflowPath(args);
    var first := FirstFailing(args, fs, readJson);
    if !Passes(ResolveRoot, args, fs, readJson) {
      assert r == Failure(PortableRootNotFound(args.root));
      assert first == Some(ResolveRoot);
    } else if !IsFile(fs, wf) {
      assert r == Failure(WorkflowNotFound(wf));
      assert first == Some(FindWorkflow);
    } else if readJson(wf).DecodeError? {
      assert r == Failure(InvalidJson(readJson(wf).message));
      assert first == Some(DecodeWorkflow);
    } else if !readJson(wf).value.JObject? {
      assert r == Failure(Uncaught(CheckNodes));
      assert first == Some(CheckNodes);
    } else {
      ObjectStopsAtFirstFailing(args, fs, readJson);
    }
  }

  /** The part of ObjectStopsAtFirstFailing where the workflow has a non-empty node list. */
  lemma {:induction false} NodesStopAtFirstFailing(args: Args, fs: FileSystem, readJson: Path -> Decoded)
    requires Passes(ResolveRoot, args, fs, readJson)
    requires IsFile(fs, WorkflowPath(args))
    requires readJson(WorkflowPath(args)).Parsed? && readJson(WorkflowPath(args)).value.JObject?
    requires Truthy(NodesValue(readJson(WorkflowPath(args)).value.fields))
    ensures var r := Validate(args, fs, readJson);
      && (r.Success? <==> FirstFailing(args, fs, readJson).None?)
      && (r.Failure? ==> FirstFailing(args, fs, readJson) == Some(StageOf(r.error)))
  {
    var r := Validate(args, fs, readJson);
    var wf := WorkflowPath(args);
    var first := FirstFailing(args, fs, readJson);
    var data := readJson(wf).value.fields;
    assert WorkflowObject(args, readJson) == Some(data);
    var nodes := NodesValue(data);
    assert nodes == data["nodes"];
    if CheckNodeTypes(nodes).Failure? {
      assert r == Failure(CheckNodeTypes(nodes).error);
      assert first == Some(CheckTypes);
    } else {
      assert Passes(CheckTypes, args, fs, readJson);
      var root := ResolvePortableRoot(fs, args.root).value;
      ComfyUIStage(args, fs, readJson);
      if IsDir(fs, Child(root, "ComfyUI")) {
        assert r == Success(QaPass(wf, root));
        assert first == None;
      } else {
        assert r == Failure(ComfyUIMissing(root));
        assert first == Some(CheckComfyUI);
      }
    }
  }

  /** The part of ObjectStopsAtFirstFailing where the workflow has no nodes. */
  lemma {:induction false} NoNodesStopsAtFirstFailing(args: Args, fs: FileSystem, readJson: Path -> Decoded)
    requires Passes(ResolveRoot, args, fs, readJson)
    requires IsFile(fs, WorkflowPath(args))
    requires readJson(WorkflowPath(args)).Parsed? && readJson(WorkflowPath(args)).value.JObject?
    requires !Truthy(NodesValue(readJson(WorkflowPath(args)).value.fields))
    ensures Validate(args, fs, readJson) == Failure(NoNodes)
    ensures FirstFailing(args, fs, readJson) == Some(CheckNodes)
  {
    var data := readJson(WorkflowPath(args)).value.fields;
    assert WorkflowObject(args, readJson) == Some(data);
  }

  /** `ValidateStopsAtFirstFailing` once the workflow decodes to an object. */
  lemma {:induction false} ObjectStopsAtFirstFailing(args: Args, fs: FileSystem, readJson: Path -> Decoded)
    requires Passes(ResolveRoot, args, fs, readJson)
    requires IsFile(fs, WorkflowPath(args))
    requires readJson(WorkflowPath(args)).Parsed? && readJson(WorkflowPath(args)).value.JObject?
    ensures var r := Validate(args, fs, readJson);
      && (r.Success? <==> FirstFailing(args, fs, readJson).None?)
      && (r.Failure? ==> FirstFailing(args, fs, readJson) == Some(StageOf(r.error)))
  {
    if Truthy(NodesValue(readJson(WorkflowPath(args)).value.fields)) {
      NodesStopAtFirstFailing(args, fs, readJson);
    } else {
      NoNodesStopsAtFirstFailing(args, fs, readJson);
    }
  }

  /**
   * The run ends at the first stage, in the order root, workflow file,
   * JSON, nodes, types, ComfyUI directory, whose check fails; every earlier
   * stage passed. A run passes exactly when every stage passes.
   */
  lemma {:induction false} ValidateFailsFast(args: Args, fs: FileSystem, readJson: Path -> Decoded)
    ensures var r := Validate(args, fs, readJson);
      && (r.Success? <==> forall s: Stage :: Passes(s, args, fs, readJson))
      && (r.Failure? ==>
            && !Passes(StageOf(r.error), args, fs, readJson)
            && forall s: Stage | Rank(s) < Rank(StageOf(r.error)) :: Passes(s, args, fs, readJson))
  {
    ValidateStopsAtFirstFailing(args, fs, readJson);
    FirstFailingIsFirst(args, fs, readJson);
  }

  lemma {:induction false} ComfyUIStage(args: Args, fs: FileSystem, readJson: Path -> Decoded)
    requires Passes(ResolveRoot, args, fs, readJson)
    ensures Passes(CheckComfyUI, args, fs, readJson) <==>
      IsDir(fs, Child(ResolvePortableRoot(fs, args.root).value, "ComfyUI"))
  {
  }

  /**
   * A "nodes" value that is absent or falsy ends the run with "Workflow has
   * no nodes" once the root, the file and the JSON object are in place,
   * whatever else the workflow holds.
   */
  lemma {:induction false} MissingNodesStopBeforeTypes(args: Args, fs: FileSystem, readJson: Path -> Decoded)
    requires Passes(ResolveRoot, args, fs, readJson) && Passes(FindWorkflow, args, fs, readJson)
    requires readJson(WorkflowPath(args)).Parsed? && readJson(WorkflowPath(args)).value.JObject?
    requires var data := readJson(WorkflowPath(args)).value.fields;
      "nodes" !in data || !Truthy(data["nodes"])
    ensures Validate(args, fs, readJson) == Failure(NoNodes)
    ensures ExitMessage(NoNodes) == Some("Workflow has no nodes")
  {
  }

  /**
   * A non-empty list of dict nodes that lacks some required type ends the
   * run with the missing types, `sorted(required - node_types)`, once the
   * root, the file and the JSON object are in place.
   */
  lemma {:induction false} MissingTypesReported(args: Args, fs: FileSystem, readJson: Path -> Decoded)
    requires Passes(ResolveRoot, args, fs, readJson) && Passes(FindWorkflow, args, fs, readJson)
    requires readJson(WorkflowPath(args)).Parsed? && readJson(WorkflowPath(args)).value.JObject?
    requires var data := readJson(WorkflowPath(args)).value.fields;
      && "nodes" in data && data["nodes"].JArray? && data["nodes"].items != []
      && (forall i | 0 <= i < |data["nodes"].items| :: WellFormedNode(data["nodes"].items[i]))
      && !(REQUIRED_TYPES <= PresentTypes(data["nodes"].items))
    ensures var nodes := readJson(WorkflowPath(args)).value.fields["nodes"].items;
      Validate(args, fs, readJson) == Failure(MissingRequiredTypes(MissingTypes(PresentTypes(nodes))))
  {
    var data := readJson(WorkflowPath(args)).value.fields;
    var nodes := data["nodes"];
    assert Truthy(nodes);
    var missing := MissingTypes(PresentTypes(nodes.items));
    assert missing != [];
    assert CheckNodeTypes(nodes) == Failure(MissingRequiredTypes(missing));
    assert ResolvePortableRoot(fs, args.root).Success?;
    assert Validate(args, fs, readJson) == Failure(MissingRequiredTypes(missing));
  }
}

=== FILE: results.dfy ===
/** Optional values and success/failure results shared by the two scripts. */
module Results {

  /** Python's `None` or a present value. */
  datatype Option<+T> = None | Some(value: T)

  /** A computation that either yields a value or stops with an error. */
  datatype Result<+T, +E> = Success(value: T) | Failure(error: E)
}

=== FILE: text.dfy ===
/**
 * String helpers shared by the two scripts: Python's `sep.join(parts)`
 * and `s.split(", ")`,
 * Python's `<` on `str` (lexicographic by code point), sortedness, and the
 * fact that a set of strings has exactly one strictly sorted enumeration.
 */
module Text {

  /** `sep.join(parts)` */
  function Join(parts: seq<string>, sep: string): string
  {
    if |parts| == 0 then ""
    else if |parts| == 1 then parts[0]
    else parts[0] + sep + Join(parts[1..], sep)
  }

  /** No element of `parts` contains a comma. */
  predicate CommaFree(parts: seq<string>)
  {
    forall i, k | 0 <= i < |parts| && 0 <= k < |parts[i]| :: parts[i][k] != ','
  }

  /** `s` holds the separator ", " at position `i`. */
  predicate SepAt(s: string, i: nat)
  {
    i + 2 <= |s| && s[i] == ',' && s[i + 1] == ' '
  }

  /** The first position at or after `from` holding ", ", or `|s|` if none does. */
  function FindSep(s: string, from: nat): (i: nat)
    requires from <= |s|
    ensures from <= i <= |s|
    ensures i < |s| ==> SepAt(s, i)
    ensures forall j | from <= j < i :: !SepAt(s, j)
    decreases |s| - from
  {
    if from == |s| then |s|
    else if SepAt(s, from) then from
    else FindSep(s, from + 1)
  }

  /** `s.split(", ")`: the pieces between the separators, left to right. */
  function Split(s: string): seq<string>
    decreases |s|
  {
    var i := FindSep(s, 0);
    if i == |s| then [s]
    else [s[..i]] + Split(s[i + 2..])
  }

  /** The first separator of `a + ", " + b` is the one after `a` when `a` has no comma. */
  lemma {:induction false} FindSepAfter(a: string, b: string)
    requires forall k | 0 <= k < |a| :: a[k] != ','
    ensures FindSep(a + ", " + b, 0) == |a|
  {
    var s := a + ", " + b;
    assert SepAt(s, |a|);
    assert forall k | 0 <= k < |a| :: s[k] == a[k];
  }

  /**
   * Splitting `", ".join(parts)` on ", " gives `parts` back when there is
   * at least one part and no part contains a comma.
   */
  lemma {:induction false} SplitJoin(parts: seq<string>)
    requires |parts| > 0 && CommaFree(parts)
    ensures Split(Join(parts, ", ")) == parts
    decreases |parts|
  {
    if |parts| == 1 {
      assert FindSep(parts[0], 0) == |parts[0]|;
    } else {
      var rest := parts[1..];
      assert CommaFree(rest) by {
        forall i, k | 0 <= i < |rest| && 0 <= k < |rest[i]|
          ensures rest[i][k] != ','
        {
          assert rest[i] == parts[i + 1];
        }
      }
      var s := parts[0] + ", " + Join(rest, ", ");
      assert forall k | 0 <= k < |parts[0]| :: parts[0][k] != ',';
      FindSepAfter(parts[0], Join(rest, ", "));
      assert s[..|parts[0]|] == parts[0];
      assert s[|parts[0]| + 2..] == Join(rest, ", ");
      SplitJoin(rest);
      assert parts == [parts[0]] + rest;
    }
  }

  /** Python's `a < b` on strings: code-point lexicographic, a proper prefix is smaller. */
  predicate Below(a: string, b: string)
  {
    if |b| == 0 then false
    else if |a| == 0 then true
    else if a[0] != b[0] then a[0] < b[0]
    else Below(a[1..], b[1..])
  }

  lemma {:induction false} BelowIrreflexive(a: string)
    ensures !Below(a, a)
  {
    if |a| > 0 {
      BelowIrreflexive(a[1..]);
    }
  }

  lemma {:induction false} BelowAsymmetric(a: string, b: string)
    ensures !(Below(a, b) && Below(b, a))
  {
    if |a| > 0 && |b| > 0 && a[0] == b[0] {
      BelowAsymmetric(a[1..], b[1..]);
    }
  }

  lemma {:induction false} BelowTransitive(a: string, b: string, c: string)
    requires Below(a, b) && Below(b, c)
    ensures Below(a, c)
  {
    if |a| > 0 && a[0] == b[0] && b[0] == c[0] {
      BelowTransitive(a[1..], b[1..], c[1..]);
    }
  }

  /** Every string comes strictly before every later one; in particular no repeats. */
  ghost predicate Sorted(s: seq<string>)
  {
    forall i, j | 0 <= i < j < |s| :: Below(s[i], s[j])
  }

  lemma {:induction false} SameElementsBothEmpty(s: seq<string>, t: seq<string>)
    requires forall x :: x in s <==> x in t
    ensures |s| == 0 <==> |t| == 0
  {
    if |s| > 0 {
      assert s[0] in t;
    }
    if |t| > 0 {
      assert t[0] in s;
    }
  }

  /**
   * Two strictly sorted sequences with the same elements are equal: the
   * result of Python's `sorted(some_set)` is determined by the set alone.
   */
  lemma {:induction false} SortedUnique(s: seq<string>, t: seq<string>)
    requires Sorted(s) && Sorted(t)
    requires forall x :: x in s <==> x in t
    ensures s == t
    decreases |s|
  {
    SameElementsBothEmpty(s, t);
    if |s| > 0 {
      assert s[0] in t;
      assert t[0] in s;
      var k :| 0 <= k < |t| && t[k] == s[0];
      var m :| 0 <= m < |s| && s[m] == t[0];
      if k > 0 && m > 0 {
        assert Below(t[0], s[0]) && Below(s[0], t[0]);
        BelowAsymmetric(s[0], t[0]);
        assert false;
      }
      assert s[0] == t[0];
      forall x
        ensures x in s[1..] <==> x in t[1..]
      {
        if x in s[1..] {
          var i :| 1 <= i < |s| && s[i] == x;
          assert Below(s[0], x);
          BelowIrreflexive(x);
          assert x in t && x != t[0];
        }
        if x in t[1..] {
          var i :| 1 <= i < |t| && t[i] == x;
          assert Below(t[0], x);
          BelowIrreflexive(x);
          assert x in s && x != s[0];
        }
      }
      SortedUnique(s[1..], t[1..]);
      assert s == [s[0]] + s[1..];
      assert t == [t[0]] + t[1..];
    }
  }

  /**
   * The elements of `s` that are not in `present`, in their order in `s`;
   * filtering a sorted sequence keeps it sorted.
   */
  function KeepAbsent(s: seq<string>, present: set<string>): (r: seq<string>)
    ensures forall x :: x in r <==> x in s && x !in present
    ensures Sorted(s) ==> Sorted(r)
  {
    if |s| == 0 then []
    else
      var rest := KeepAbsent(s[1..], present);
      assert Sorted(s) ==> Sorted(s[1..]);
      assert forall x :: x in rest ==> x in s[1..];
      assert Sorted(s) ==> forall j | 0 <= j < |rest| :: Below(s[0], rest[j]) by {
        if Sorted(s) {
          forall j | 0 <= j < |rest|
            ensures Below(s[0], rest[j])
          {
            assert rest[j] in s[1..];
            var i :| 1 <= i < |s| && s[i] == rest[j];
          }
        }
      }
      if s[0] in present then rest else [s[0]] + rest
  }
}
